=== FILE: README.md ===
# go-easy-mail, modelled in Dafny

A model of the core of the Go package `go_easy_mail`. It sends one mail over SMTP on an implicit-TLS connection.

- **Validation.** `validateMail` checks the `Mail` record in a fixed order: body, subject, sender, at least one To recipient, then every To, Cc and Bcc address.
- **Rendering.** `buildMessage` renders the mail as a `multipart/mixed` MIME message with the fixed boundary `myboundary`. The header block holds MIME-Version, Content-Type, From, the optional To and Cc fields, and the subject as an RFC 2047 'B' encoded-word. One body part follows, then one base64 part per attachment, then the close delimiter. Each attachment's media type comes from `getContentType`, which looks at the lower-cased file extension.
- **Connection.** `newSMTPClient` builds the client record. `getClient` accepts the host only if it matches the `isDomain` pattern, and the port only if `strconv.Atoi` reads it as a number greater than zero. Only then does it dial and greet.
- **Send.** `Send` chains all of this: validate, build, connect, then AUTH, MAIL, one RCPT per To, Cc and Bcc address, DATA, the write of the message, Close and QUIT. Refused recipients and a failing Close are only logged, and QUIT's result is dropped. Every other failure ends the send with that error.

Modules:

- `Results`: `Option`.
- `GoText`: the standard-library helpers the core calls (`strings.Join`, `strings.ToLower`, `filepath.Ext` and `strconv.Atoi`), plus `Split` and `Itoa`. The core calls neither of those two; they are the partners that the round-trip lemmas about `Join` and `Atoi` need.
- `Base64`: standard base64 (section 4 of RFC 4648) with a decoder as its partner.
- `Utf8`: Go's `[]byte(s)` conversion with a decoder as its partner.
- `Wire`: the commands a send gives to the network, the errors the mailer returns (with Go's texts, including the misspelt "email address is inavlid"), and the `Network` class.
- `Smtp`: smtp.go.
- `Mime`: `buildMessage` and `getContentType`, plus a small header and part reader used as the partner of the writer.
- `Sender`: `validateMail` and `Send`.
- `Multipart`: a reader that cuts the rendered parts apart at their delimiter lines, as section 5.1.1 of RFC 2046 describes. It is the partner that shows when the parts `buildMessage` joins can be told apart again.

How the model treats what lies outside the package:

- **The network is a class, `Wire.Network`.** It logs every command it is given. Its `reply` function decides, from the earlier commands and the command itself, whether a command fails and with which error text. Every behaviour of a real server is one choice of `reply`.
- **`Send` is proved against a specification function.** `Sender.Run` gives the commands of `Sender.Script` in order and stops after the first failing command whose failure is fatal.
- **Address syntax is a parameter.** `IsEmail` (Go's `net/mail.ParseAddress`) is the function parameter `isEmail`.
- **The map order is a parameter.** Go visits the attachment map in an unspecified order, so the model takes that order as `order`. `Mime.OrderIndependent` shows every order gives the same parts.
- **`encryption` is copied as it is.** `Send` copies `GoEasyEmail.encryption` into the TLS record's `InsecureSkipVerify`, so `encryption == true` turns certificate checking off. The model keeps this (`Sender.Client`).
- **`NewGoEasyEmail` is the datatype constructor** `Sender.GoEasyEmail`.

## Model

| member | source | states |
|---|---|---|
| Mime.Rendered | sender.go:110-160 | no ensures; the body is the definition: header block, blank line, the parts and the close delimiter; Mime.RenderedFrame, Mime.PartCount and Mime.OrderIndependent state what it holds |
| Mime.BuildMessage | sender.go:110-160 | the text built is `Rendered(mail, order)`: header block, blank line, body part, attachment parts in visiting order, close delimiter |
| Mime.WriteHeader | sender.go:113-131 | the header lines written one by one are the header fields, each ended by CRLF, then the blank line |
| Mime.WriteBodyPart | sender.go:133-143 | appends exactly the body part to what was built so far |
| Mime.WriteAttachmentPart | sender.go:147-154 | appends exactly one attachment part to what was built so far |
| Mime.WriteAttachmentParts | sender.go:146-155 | the loop over the attachments appends one part per name, in visiting order |
| Mime.RenderedFrame | sender.go:114-115 | the message always opens with the MIME-Version and multipart Content-Type lines and ends with `--myboundary--`, with no line break after it |
| Mime.HeaderBlockOpening | sender.go:114-115 | the first two header lines are MIME-Version and the multipart Content-Type with boundary `myboundary` |
| Mime.HeaderReadsBack | sender.go:113-131 | when the sender, the display name, To and Cc hold no CR, a header reader gets back exactly the header fields, and after the blank line the parts and the close delimiter |
| Mime.HeaderFields | sender.go:113-131 | no ensures; the body is the definition: MIME-Version, the multipart Content-Type, From, then the optional To and Cc and the Subject; the lemmas on the rows around it state what they hold |
| Mime.HeaderFieldsAreLines | sender.go:117-130 | under the same condition, every header field is a single non-empty line |
| Mime.FromHeader | sender.go:117-121 | the From value is `name <address>` with the name unquoted when there is a display name, else the address alone |
| Mime.ToHeader | sender.go:123-125 | a To field exists exactly when To is non-empty, and it holds the `;`-join of To |
| Mime.CcHeader | sender.go:126-128 | a Cc field exists exactly when Cc is non-empty, and it holds the `;`-join of Cc |
| Mime.NoBccHeader | sender.go:123-131 | no header field is called Bcc |
| Mime.BccNotRendered | sender.go:110-160 | the message does not depend on the Bcc list at all |
| Mime.ToRecipients | sender.go:123-125 | when no address holds `;`, splitting the To value at `;` gives back the To list |
| Mime.SubjectHeader | sender.go:129-130 | the Subject value is the encoded-word of the subject, and decoding it gives the subject back |
| Mime.SubjectFieldText | sender.go:129-130 | the Subject field is `Subject: =?utf-8?B?` + base64 of the subject's UTF-8 bytes + `?=` |
| Mime.SubjectExample | sender.go:129-130 | the subject `Hi` is written as `=?utf-8?B?SGk=?=` |
| Mime.EncodedWordRoundTrip | sender.go:129-130 | decoding the 'B' encoded-word (base64, then UTF-8) gives back the subject text |
| Mime.BodyPartReadsBack | sender.go:134-143 | the body part reads back as text/html (when the mail says HTML) or text/plain with charset utf-8, then 7bit, then the body unchanged |
| Mime.AttachmentPartReadsBack | sender.go:147-154 | an attachment part reads back as: Content-Type of `getContentType(name)` with `name=`, base64 encoding, a disposition with `filename=`, and a payload that base64-decodes to the data and holds only base64 characters |
| Mime.ReadHeaderBlock | sender.go:113-131 | the reader partner: a block of CR-free lines and a blank line read back as those lines and the rest |
| Mime.ReadPartOf | sender.go:134-154 | the reader partner: a delimiter, a header block, a blank line, content and CRLF read back as the header lines and the content |
| Mime.PartCount | sender.go:133-155 | there is exactly one body part, first, then exactly one part per attachment |
| Multipart.CutRendered | sender.go:133-157 | a reader that cuts the text after the header block at its delimiter lines gets back exactly the parts written (the body part, then one part per attachment, in order) if and only if no line of the body starts with `--myboundary`; attachment names hold no CR |
| Multipart.BodyBoundaryMisreads | sender.go:141 | the body is written as it is, so a body line starting with `--myboundary` makes the cut parts differ from the parts written |
| Multipart.BoundaryInBodyExample | sender.go:141 | the body `x`, CRLF, `--myboundary--` gives a message whose parts do not read back |
| Multipart.CutFramed | sender.go:133-157 | parts that each hold a delimiter line, content with no delimiter line in it and a final CRLF, joined and followed by `--myboundary--`, are cut back into exactly those parts |
| Multipart.BodyFramed | sender.go:133-143 | the body part holds no delimiter line inside it exactly when no line of the body starts with `--myboundary` |
| Multipart.AttachmentFramed | sender.go:147-154 | an attachment part whose name holds no CR holds no delimiter line inside it |
| Multipart.PayloadFree | sender.go:153 | a base64 payload holds no CR, so no line of it can start with the boundary |
| Mime.EnumerationSize | sender.go:146 | a visiting order of the attachment map lists as many names as the map holds |
| Mime.EnumerationsAgree | sender.go:146 | two visiting orders of the same map hold the same names |
| Mime.PartsForPermute | sender.go:146-155 | orders holding the same names give the same parts, each as often, whatever one part is made of |
| Mime.PartsForAppend | sender.go:146-155 | the parts of two orders, one after the other, are the parts of the joined order |
| Mime.OrderIndependent | sender.go:146-155 | whatever order Go visits the map in, the message has the same body part first and the same attachment parts, each once |
| Mime.ContentType | sender.go:162-181 | `getContentType` is total: its result is one of the eight media types (which one is stated by Mime.ContentTypeTable and Mime.ContentTypeDefault) |
| Mime.MediaType | sender.go:164-181 | no ensures; the body is the definition: the `switch` on the lower-cased extension, with application/octet-stream as the default |
| Mime.MediaTypeDefault | sender.go:164-181 | an extension gets application/octet-stream exactly when it is not one of the eight listed |
| Mime.ContentTypeDefault | sender.go:163-181 | a file name gets application/octet-stream exactly when its lower-cased extension is not one of the eight listed |
| Mime.ContentTypeExamples | sender.go:163-181 | `a.doc`, `index.htm` and `a.tar.gz` get application/octet-stream; `Report.PDF` gets application/pdf |
| Mime.ContentTypeTable | sender.go:164-178 | .txt, .html, .jpg and .jpeg, .png, .gif, .pdf and .zip map to their listed types, whatever the name before them |
| Mime.ContentTypeWithoutExtension | sender.go:179-180 | a name whose last element has no `.` gets application/octet-stream |
| Mime.ContentTypeIgnoresCase | sender.go:163 | the type depends on the extension only up to case |
| Mime.LowerExtOfLower | sender.go:163 | lower-casing the name before taking the extension gives the same lower-cased extension |
| Mime.ExtLower | sender.go:163 | the extension of the lower-cased name is the lower-cased extension of the name |
| Mime.ScanStopLower | sender.go:163 | lower-casing leaves every `.` and `/` in place, so the extension scan stops at the same index |
| Mime.LowerExtOfSuffix | sender.go:163 | a name ending in a lower-case extension `e` has extension `e` after lower-casing |
| Mime.ExtOfSuffix | sender.go:163 | a suffix starting with `.` and holding no other `.` and no `/` is the extension |
| GoText.Ext | sender.go:163 | the extension is empty or a `.`-led suffix of the name after the last `/`, holding no other `.` and no `/`; it is empty exactly when the last element has no `.` |
| GoText.ScanStop | sender.go:163 | the backward scan for the extension stops at the last `.` before any `/`, or reports that the last element has no `.` |
| GoText.ToLower | sender.go:163 | keeps the length; otherwise the body is the definition: every rune lowered by GoText.LowerRune |
| GoText.Join | sender.go:124 | no ensures; the body is the definition: the elements with the separator between each two; GoText.SplitJoin and GoText.JoinSplit tie it to GoText.Split |
| GoText.LowerRune | sender.go:163 | a rune lowers to a-z exactly when it is a letter a-z or A-Z, U+0130 or U+212A; `.` and `/` are kept |
| GoText.Split | sender.go:124 | splitting never gives an empty list, and no piece holds the separator |
| GoText.SplitJoin | sender.go:124 | splitting a `;`-join whose elements hold no `;` gives the elements back |
| GoText.JoinSplit | smtp.go:79-80 | joining the pieces of a split with the separator gives the text back |
| GoText.SplitAround | smtp.go:79-80 | splitting at a separator splits the two sides independently |
| GoText.JoinCharacters | smtp.go:79-80 | every character of a join comes from an element or the separator |
| GoText.Atoi | smtp.go:63 | a number is read only from a text starting with a sign or a digit, and it fits in 64 bits |
| GoText.Digits | smtp.go:63 | the decimal digits of `n` have value `n` |
| GoText.AtoiItoa | smtp.go:63 | `Atoi` reads back every 64-bit value `Itoa` writes |
| Base64.Encode | sender.go:153 | no ensures; the body is the definition: each group of three bytes becomes four alphabet characters and a final short group is padded with `=` (`base64.StdEncoding`, also used for the subject at sender.go:129); Base64.DecodeEncode and Base64.EncodeCharacters state what it means |
| Base64.KnownAnswers | sender.go:129 | the encoder gives the answers of section 10 of RFC 4648 (`f` is `Zg==`, `fo` is `Zm8=`, `foo` is `Zm9v`, up to `foobar` as `Zm9vYmFy`), and `Hi` becomes `SGk=` |
| Base64.DecodeEncode | sender.go:129 | base64-decoding the encoding of any byte sequence gives it back |
| Base64.EncodeCharacters | sender.go:153 | the encoding holds only alphabet characters and `=`, four characters per started group of three bytes |
| Base64.Value | sender.go:153 | exactly the 64 alphabet characters have a 6-bit value |
| Base64.ValueOfChar | sender.go:153 | the character for a 6-bit value reads back as that value |
| Base64.GroupBits | sender.go:153 | the four 6-bit values of a group reassemble its three bytes |
| Base64.DecodeFullGroup | sender.go:153 | a full group of four characters decodes to its three bytes |
| Base64.DecodeFinal1 | sender.go:153 | a final group padded with `==` decodes to its one byte |
| Base64.DecodeFinal2 | sender.go:153 | a final group padded with `=` decodes to its two bytes |
| Utf8.Encode | sender.go:95 | gives at least one byte per rune; otherwise the body is the definition: the UTF-8 bytes of each scalar value in turn (also used for the subject at sender.go:129); Utf8.DecodeEncode states what it means |
| Utf8.AsciiExample | sender.go:129 | the bytes of the ASCII text `Hi` are 0x48 0x69 |
| Utf8.MultiByteExamples | sender.go:129 | U+00E9 is written as C3 A9, U+20AC as E2 82 AC and U+1F600 as F0 9F 98 80, one known answer per multi-byte length |
| Utf8.DecodeEncode | sender.go:95 | the UTF-8 bytes of a string decode back to the string, so `[]byte(s)` loses nothing |
| Utf8.DecodeFirstUnits | sender.go:95 | the bytes of one scalar value read back as that value, whatever follows |
| Utf8.Units | sender.go:95 | a scalar value takes one to four bytes, and one exactly when it is ASCII |
| Smtp.NewSmtpClient | smtp.go:25-42 | host and port are kept, debug is off, the dial address is `host + ":" + port` and (when the port has no `:`) splits back into host and port, and the TLS record verifies for `host` unless a config is given, in which case the first one is used |
| Smtp.AddressSplits | smtp.go:27 | `host + ":" + port` splits at its last `:` back into host and port when the port has no `:` |
| Smtp.IsDomain | smtp.go:78-81 | no ensures; the body is the definition: the host split at `.` has at least two pieces, every piece but the last is a label of a-z, 0-9 and inner `-`, and the last is two or more letters a-z; Smtp.IsDomainSound and Smtp.IsDomainComplete state it as a shape |
| Smtp.IsPort | smtp.go:63 | no ensures; the body is the definition: `strconv.Atoi` reads a number and it is greater than zero |
| Smtp.GuardError | smtp.go:59-65 | no ensures; the body is the definition: a bad host error when the host is not a domain, else a bad port error when the port is not accepted, else none; Smtp.GetClient states what follows from it |
| Smtp.IsDomainSound | smtp.go:78-81 | every accepted host is one or more labels, each followed by `.`, then a top-level name |
| Smtp.IsDomainComplete | smtp.go:78-81 | every host of that shape is accepted |
| Smtp.DottedJoin | smtp.go:79 | labels each followed by `.`, then a top-level name, is the `.`-join of the labels and the name |
| Smtp.DomainCharacters | smtp.go:79-80 | an accepted host holds only a-z, 0-9, `-` and `.`, has a `.`, starts with a letter or digit and ends with a letter |
| Smtp.NotDomainChar | smtp.go:79-80 | a host holding a character other than a-z, 0-9, `-` and `.` is rejected |
| Smtp.NotDomainStart | smtp.go:79-80 | a host that does not start with a letter or digit is rejected |
| Smtp.NotDomainDotless | smtp.go:79-80 | a host without a `.` is rejected |
| Smtp.AcceptedDomainExample | smtp.go:79-80 | `smtp.example.com` is accepted |
| Smtp.RejectedDomainExamples | smtp.go:79-80 | `-bad.com`, `not a domain`, `localhost` and `SMTP.example.com` are rejected |
| Smtp.PortCharacters | smtp.go:63-65 | an accepted port is an optional `+` then decimal digits, so it has no `:` |
| Smtp.PortOfItoa | smtp.go:63-65 | every positive 64-bit number written in decimal is an accepted port |
| Smtp.PortExamples | smtp.go:63-65 | `587` is accepted; `0`, `-1` and `abc` are rejected |
| Smtp.GuardedAddress | smtp.go:59-67 | once both guards pass, the address dialled splits back into the client's host and port |
| Smtp.GetClient | smtp.go:54-76 | a bad host is reported before the port is looked at, and neither guard failure touches the network; otherwise it dials, and greets only if the dial worked, passing dial and greeting errors on unchanged |
| Sender.FirstFailure | sender.go:184-222 | the error of the first failing check, in the source's order |
| Sender.ValidateMail | sender.go:184-222 | succeeds exactly when the mail is acceptable, and otherwise reports the first failing check's error |
| Sender.FirstFailureNone | sender.go:184-222 | validation finds no failure exactly when body, subject, sender, a non-empty To and every To, Cc and Bcc address are valid |
| Sender.FailureOrder | sender.go:187-201 | a missing body is reported whatever else is wrong; a bad sender is reported before a missing recipient |
| Sender.RcptAll | sender.go:80-88 | one RCPT per receiver, in order |
| Sender.Client | sender.go:60-64 | no ensures; the body is the definition: `newSMTPClient(host, port)` with its TLS record replaced by `InsecureSkipVerify = encryption` and `ServerName = host` |
| Sender.Script | sender.go:60-104 | no ensures; the body is the definition: the commands `Send` gives when nothing fails; Sender.ScriptShape states them one by one |
| Sender.Run | sender.go:66-104 | no ensures; the body is the definition: the commands in order, stopping after the first fatal one that fails; Sender.RunPrefix, Sender.RunSucceeds and Sender.RunCons state what it means |
| Sender.RunPrefix | sender.go:47-108 | a run gives a prefix of its script and nothing after it; a run ending in error stops right after a fatal command that failed with that error |
| Sender.RunSucceeds | sender.go:47-108 | a run ends without error exactly when every fatal command is accepted, whatever RCPT, Close and QUIT get back; then every command was given |
| Sender.RunCons | sender.go:47-108 | one step of a run: a failing fatal command stops it, anything else goes on |
| Sender.ScriptRun | sender.go:60-68 | the run of the script stops on a failing dial or greeting, and otherwise is the run of the session from AUTH on, after those two commands |
| Sender.ScriptShape | sender.go:60-104 | the dial goes to `host:port` with `InsecureSkipVerify = encryption`; then greeting, AUTH with the credentials, MAIL with the sender, one RCPT per To, Cc and Bcc address in order, DATA, a write whose bytes decode back to the message, Close and QUIT |
| Sender.RefusedRecipientsIgnored | sender.go:83-88 | against a server that refuses every recipient and accepts the rest, the whole script is given and the send succeeds |
| Sender.AsMailError | sender.go:72-97 | a remote error becomes the send's error exactly when there is one |
| Sender.Recipients | sender.go:80-88 | every receiver gets its RCPT, whatever the replies, and the run of what follows is the run of the whole |
| Sender.Finish | sender.go:90-104 | DATA and the write stop on failure; Close's failure is only logged; QUIT's result is dropped; the log and error are those of the run |
| Sender.Deliver | sender.go:70-104 | AUTH and MAIL stop on failure; then recipients and the end of the session; the log and error are those of the run |
| Sender.Send | sender.go:47-108 | returns the mail unchanged; a validation failure returns its error with nothing sent; a bad host or port returns its error with nothing sent; otherwise the log and the error are those of running the full script |
| Wire.Message | sender.go:185-200 | no ensures; the body is the definition: the text Go gives each validation error (sender.go:185-200; the address text is used again up to sender.go:217), and the host and port texts of smtp.go:60 and smtp.go:64; a remote error keeps its own text |
| Wire.Network.Issue | sender.go:66-104 | the command is appended to the log, and its outcome is the network's reply to it given the earlier commands |

## Left out

- Real networking and TLS are not modelled. `tls.Dial`, `smtp.NewClient`, `Auth`, `Mail`, `Rcpt`, `Data`, `Write`, `Close` and `Quit` are commands logged by `Wire.Network`, and the parameter `reply` chooses their outcome. The TLS record is two fields, and certificate checking is not modelled.
- `IsEmail` is the parameter `isEmail`. The RFC 5322 address grammar of `net/mail.ParseAddress` is not part of this model.
- `ReadFile` is left out: it is file-system I/O that ends the process with `log.Fatalf` on error.
- The `log.Println` calls for a refused recipient or a failing Close are left out. Only the fact that the send goes on is modelled.
- Go's map iteration order is left out. It is the parameter `order` of `BuildMessage` and `Send`.
- Strings are sequences of Unicode scalar values. Go strings holding invalid UTF-8 are not modelled.
- GoText.LowerRune: lowers only the runes whose lower case is an ASCII letter (A-Z, U+0130, U+212A). Other upper-case runes are kept as they are. No extension in the `getContentType` table can be reached through them.
- GoText.Ext: handles `/` as the only path separator, as `filepath.Ext` does outside Windows.
- Mime.BuildMessage: requires only that every name in `order` is an attachment. `Send` requires the full enumeration (every name exactly once). That is what `Mime.PartCount` and `Mime.OrderIndependent` use.
- Mime.HeaderReadsBack: requires that the addresses and the display name hold no CR. A CR there would break the header line, and the writer does not guard against it.
- Mime.AttachmentPartReadsBack: requires that the file name holds no CR, because a CR there would break the Content-Type and Content-Disposition lines. The writer does not guard against it.
- Multipart.CutRendered: requires CR-free attachment names, for the same reason as Mime.AttachmentPartReadsBack.
- Mime.PartCount: counts the parts as the renderer joins them. A reader that cuts the message at its delimiter lines finds those parts only when no body line starts with `--myboundary`. Multipart.CutRendered states this, and the Findings table below gives an input that breaks it.
- Sender.Send: takes `Mail` as a value, so the aliasing of Go's slices is not modelled. `append(mail.To, mail.Cc...)` (sender.go:80-81) writes into the spare capacity of To's backing array when there is some, and Cc or Bcc may share it. With `all = [a, b, c]`, `To = all[:1]`, `Cc = all[2:3]` and `Bcc = all[1:2]`, Go sends RCPT to a, c and c, none to b, and the returned mail's Bcc reads `[c]`. The model's "one RCPT per To, Cc and Bcc address" and "returns the mail unchanged" therefore hold in Go only when To's spare capacity is not shared with Cc or Bcc.
- Sender.Send: a nil `*Mail` makes Go panic at sender.go:187; the model has no nil mail.
- `conn` (smtp.go:44-52) is the `Dial` command of `Smtp.GetClient`.

## Findings

| source | as written | input that shows it | evidently intended | confidence | as-written member | corrected member |
|---|---|---|---|---|---|---|
| sender.go:141 | the body is written between the delimiter lines as it is; nothing checks it against the boundary | the body `x`, CRLF, `--myboundary--`: the reader sees the close delimiter inside the body part | every part reads back, which section 5.1.1 of RFC 2046 gets by choosing a boundary that no line of any part starts with | not executed | Multipart.BoundaryInBodyExample | Multipart.CutRendered |

=== FILE: base64.dfy ===
/**
 * The standard base64 encoding of RFC 4648 section 4 (alphabet A-Z a-z 0-9 + /,
 * '=' padding), as Go's `base64.StdEncoding.EncodeToString` produces it, and a
 * decoder that serves as its partner.
 */
module Base64 {
  import opened Results

  /** The character that stands for the 6-bit value `x`. */
  function Char(x: bv8): (c: char)
    requires x < 64
    ensures IsAlphabet(c)
  {
    if x < 26 then ('A' as int + x as int) as char
    else if x < 52 then ('a' as int + x as int - 26) as char
    else if x < 62 then ('0' as int + x as int - 52) as char
    else if x == 62 then '+'
    else '/'
  }

  predicate IsAlphabet(c: char)
  {
    'A' <= c <= 'Z' || 'a' <= c <= 'z' || '0' <= c <= '9' || c == '+' || c == '/'
  }

  /** The 6-bit value of an alphabet character, or None for any other character. */
  function Value(c: char): (r: Option<bv8>)
    ensures r.Some? <==> IsAlphabet(c)
    ensures r.Some? ==> r.value < 64
  {
    if 'A' <= c <= 'Z' then Some((c as int - 'A' as int) as bv8)
    else if 'a' <= c <= 'z' then Some((c as int - 'a' as int + 26) as bv8)
    else if '0' <= c <= '9' then Some((c as int - '0' as int + 52) as bv8)
    else if c == '+' then Some(62)
    else if c == '/' then Some(63)
    else None
  }

  lemma ValueOfChar(x: bv8)
    requires x < 64
    ensures Value(Char(x)) == Some(x)
  {
    if x < 26 {
      ValueOfUpper(x);
    } else if x < 52 {
      ValueOfLower(x);
    } else if x < 62 {
      ValueOfDigit(x);
    }
  }

  lemma ValueOfUpper(x: bv8)
    requires x < 26
    ensures Value(Char(x)) == Some(x)
  {
  }

  lemma ValueOfLower(x: bv8)
    requires 26 <= x < 52
    ensures Value(Char(x)) == Some(x)
  {
  }

  lemma ValueOfDigit(x: bv8)
    requires 52 <= x < 62
    ensures Value(Char(x)) == Some(x)
  {
  }

  /** Encoding: each group of three bytes becomes four characters; a final group of
      one or two bytes is padded with '=' to four characters. */
  function Encode(s: seq<bv8>): (r: string)
    decreases |s|
  {
    if |s| == 0 then ""
    else if |s| == 1 then Final1(s[0])
    else if |s| == 2 then Final2(s[0], s[1])
    else Group(s[0], s[1], s[2]) + Encode(s[3..])
  }

  /** The four characters for three bytes: their 24 bits cut into four 6-bit values. */
  function Group(b0: bv8, b1: bv8, b2: bv8): (r: string)
  {
    [Char(b0 >> 2), Char(((b0 & 3) << 4) | (b1 >> 4)), Char(((b1 & 15) << 2) | (b2 >> 6)), Char(b2 & 63)]
  }

  /** The padded group for a final single byte. */
  function Final1(b0: bv8): (r: string)
  {
    [Char(b0 >> 2), Char((b0 & 3) << 4), '=', '=']
  }

  /** The padded group for two final bytes. */
  function Final2(b0: bv8, b1: bv8): (r: string)
  {
    [Char(b0 >> 2), Char(((b0 & 3) << 4) | (b1 >> 4)), Char((b1 & 15) << 2), '=']
  }

  /** Reassembling the four 6-bit values of a group gives back the three bytes. */
  lemma GroupBits(b0: bv8, b1: bv8, b2: bv8)
    ensures var x0, x1, x2, x3 := b0 >> 2, ((b0 & 3) << 4) | (b1 >> 4), ((b1 & 15) << 2) | (b2 >> 6), b2 & 63;
            (x0 << 2) | (x1 >> 4) == b0 && (x1 << 4) | (x2 >> 2) == b1 && (x2 << 6) | x3 == b2
  {
  }

  /** Decodes one group of four characters; `last` says whether it ends the input,
      the only place where padding is allowed. */
  function DecodeQuad(a: char, b: char, c: char, d: char, last: bool): (r: Option<seq<bv8>>)
    ensures r.Some? ==> 1 <= |r.value| <= 3
  {
    var va, vb, vc, vd := Value(a), Value(b), Value(c), Value(d);
    if va.None? || vb.None? then None
    else if last && c == '=' && d == '=' then
      Some([(va.value << 2) | (vb.value >> 4)])
    else if vc.None? then None
    else if last && d == '=' then
      Some([(va.value << 2) | (vb.value >> 4), (vb.value << 4) | (vc.value >> 2)])
    else if vd.None? then None
    else
      Some([(va.value << 2) | (vb.value >> 4), (vb.value << 4) | (vc.value >> 2), (vc.value << 6) | vd.value])
  }

  function Decode(s: string): (r: Option<seq<bv8>>)
    decreases |s|
  {
    if |s| == 0 then Some([])
    else if |s| < 4 then None
    else match DecodeQuad(s[0], s[1], s[2], s[3], |s| == 4)
      case None => None
      case Some(group) =>
        match Decode(s[4..])
        case None => None
        case Some(rest) => Some(group + rest)
  }

  /** The four characters of a full group decode back to its three bytes. */
  lemma DecodeFullGroup(b0: bv8, b1: bv8, b2: bv8, last: bool)
    ensures var q := Group(b0, b1, b2);
            DecodeQuad(q[0], q[1], q[2], q[3], last) == Some([b0, b1, b2])
  {
    var x0, x1, x2, x3 := b0 >> 2, ((b0 & 3) << 4) | (b1 >> 4), ((b1 & 15) << 2) | (b2 >> 6), b2 & 63;
    ValueOfChar(x0); ValueOfChar(x1); ValueOfChar(x2); ValueOfChar(x3);
    var q := Group(b0, b1, b2);
    DecodeQuadFull(q[0], q[1], q[2], q[3], last);
    GroupBits(b0, b1, b2);
  }

  /** Four alphabet characters decode as a full group, even at the end. */
  lemma DecodeQuadFull(a: char, b: char, c: char, d: char, last: bool)
    requires Value(a).Some? && Value(b).Some? && Value(c).Some? && Value(d).Some?
    ensures DecodeQuad(a, b, c, d, last)
            == Some([(Value(a).value << 2) | (Value(b).value >> 4), (Value(b).value << 4) | (Value(c).value >> 2),
                     (Value(c).value << 6) | Value(d).value])
  {
    assert !IsAlphabet('=');
  }

  /** A padded final group decodes back to its one or two bytes. */
  lemma DecodeFinal1(b0: bv8)
    ensures var q := Final1(b0); DecodeQuad(q[0], q[1], q[2], q[3], true) == Some([b0])
  {
    ValueOfChar(b0 >> 2);
    ValueOfChar((b0 & 3) << 4);
  }

  lemma DecodeFinal2(b0: bv8, b1: bv8)
    ensures var q := Final2(b0, b1); DecodeQuad(q[0], q[1], q[2], q[3], true) == Some([b0, b1])
  {
    ValueOfChar(b0 >> 2);
    ValueOfChar(((b0 & 3) << 4) | (b1 >> 4));
    ValueOfChar((b1 & 15) << 2);
  }

  /** The test vectors of section 10 of RFC 4648 ("f", "fo", "foo", "foob",
      "fooba", "foobar"), and "Hi". */
  lemma KnownAnswers()
    ensures Encode([]) == ""
    ensures Encode([0x66]) == "Zg=="
    ensures Encode([0x66, 0x6f]) == "Zm8="
    ensures Encode([0x66, 0x6f, 0x6f]) == "Zm9v"
    ensures Encode([0x66, 0x6f, 0x6f, 0x62]) == "Zm9vYg=="
    ensures Encode([0x66, 0x6f, 0x6f, 0x62, 0x61]) == "Zm9vYmE="
    ensures Encode([0x66, 0x6f, 0x6f, 0x62, 0x61, 0x72]) == "Zm9vYmFy"
    ensures Encode([0x48, 0x69]) == "SGk="
  {
    assert [0x66 as bv8, 0x6f, 0x6f][3..] == [];
    assert [0x66 as bv8, 0x6f, 0x6f, 0x62][3..] == [0x62];
    assert [0x66 as bv8, 0x6f, 0x6f, 0x62, 0x61][3..] == [0x62, 0x61];
    assert [0x66 as bv8, 0x6f, 0x6f, 0x62, 0x61, 0x72][3..] == [0x62, 0x61, 0x72];
    assert [0x62 as bv8, 0x61, 0x72][3..] == [];
  }

  /** Decoding undoes encoding. */
  lemma {:induction false} DecodeEncode(s: seq<bv8>)
    ensures Decode(Encode(s)) == Some(s)
    decreases |s|
  {
    if |s| == 1 {
      DecodeEncode1(s[0]);
      assert s == [s[0]];
    } else if |s| == 2 {
      DecodeEncode2(s[0], s[1]);
      assert s == [s[0], s[1]];
    } else if |s| >= 3 {
      DecodeEncode(s[3..]);
      DecodeEncodeStep(s);
    }
  }

  /** A full group in front of an encoding that decodes back decodes back too. */
  lemma DecodeEncodeStep(s: seq<bv8>)
    requires |s| >= 3 && Decode(Encode(s[3..])) == Some(s[3..])
    ensures Decode(Encode(s)) == Some(s)
  {
    assert Encode(s) == Group(s[0], s[1], s[2]) + Encode(s[3..]);
    DecodeGroupThen(s[0], s[1], s[2], Encode(s[3..]), s[3..]);
    FirstThree(s);
  }

  lemma FirstThree(s: seq<bv8>)
    requires |s| >= 3
    ensures s == [s[0], s[1], s[2]] + s[3..]
  {
    assert s[..3] == [s[0], s[1], s[2]];
  }

  lemma DecodeEncode1(b0: bv8)
    ensures Decode(Final1(b0)) == Some([b0])
  {
    DecodeFinal1(b0);
    var q := Final1(b0);
    assert Decode(q[4..]) == Some([]);
    assert [b0] + [] == [b0];
  }

  lemma DecodeEncode2(b0: bv8, b1: bv8)
    ensures Decode(Final2(b0, b1)) == Some([b0, b1])
  {
    DecodeFinal2(b0, b1);
    var q := Final2(b0, b1);
    assert Decode(q[4..]) == Some([]);
    assert [b0, b1] + [] == [b0, b1];
  }

  /** A full group in front of an encoding that decodes puts its three bytes in front. */
  lemma DecodeGroupThen(b0: bv8, b1: bv8, b2: bv8, e: string, rest: seq<bv8>)
    requires Decode(e) == Some(rest)
    ensures Decode(Group(b0, b1, b2) + e) == Some([b0, b1, b2] + rest)
  {
    var q := Group(b0, b1, b2);
    assert (q + e)[4..] == e;
    assert (q + e)[..4] == q;
    DecodeFullGroup(b0, b1, b2, |q + e| == 4);
  }

  /** Every encoded character is an alphabet character or '='; in particular the
      encoding never contains '-', CR or LF. */
  lemma {:induction false} EncodeCharacters(s: seq<bv8>)
    ensures forall i :: 0 <= i < |Encode(s)| ==> IsAlphabet(Encode(s)[i]) || Encode(s)[i] == '='
    ensures |Encode(s)| == 4 * ((|s| + 2) / 3)
    decreases |s|
  {
    if |s| >= 3 {
      EncodeCharacters(s[3..]);
    }
  }
}

=== FILE: mime.dfy ===
/**
 * The message the mailer sends as the SMTP DATA payload (sender.go,
 * `buildMessage` and `getContentType`): a multipart/mixed MIME document with a
 * fixed boundary, one text part for the body and one base64 part per attachment.
 */
module Mime {
  import opened Results
  import opened GoText
  import Base64
  import Utf8

  /** Go's `Mail`. Attachments map a file name to its bytes. */
  datatype Mail = Mail(
    sender: string,
    senderName: string,
    to: seq<string>,
    cc: seq<string>,
    bcc: seq<string>,
    subject: string,
    body: string,
    attachments: map<string, seq<bv8>>,
    isHtml: bool)

  /** `order` lists every attachment name exactly once: one of the orders in which
      Go's `range` may visit the attachment map. */
  predicate IsEnumeration(order: seq<string>, m: map<string, seq<bv8>>)
  {
    (forall k :: k in m ==> k in order) && (forall k :: k in order ==> k in m) && Distinct(order)
  }

  /** No name occurs twice in `order`. */
  predicate Distinct(order: seq<string>)
  {
    forall i :: 0 <= i < |order| ==> order[i] !in order[..i]
  }

  const Crlf: string := "\r\n"
  const VersionField: string := "MIME-Version: 1.0"
  const MultipartField: string := "Content-Type: " + "multipart/mixed; boundary=\"myboundary\""
  /** The delimiter line that opens every part (section 5.1.1 of RFC 2046). */
  const Delimiter: string := "--myboundary\r\n"
  /** The close delimiter that ends the message, with no line break after it. */
  const CloseDelimiter: string := "--myboundary--"

  // ---------------------------------------------------------------------------
  // getContentType

  /** `getContentType`: the media type for a file name, from its lower-cased extension. */
  function ContentType(filename: string): (r: string)
    ensures r in {"text/plain", "text/html", "image/jpeg", "image/png", "image/gif",
                  "application/pdf", "application/zip", "application/octet-stream"}
  {
    MediaType(ToLower(Ext(filename)))
  }

  /** The extensions the switch of `getContentType` lists. */
  const TableExtensions: set<string> := {".txt", ".html", ".jpg", ".jpeg", ".png", ".gif", ".pdf", ".zip"}

  /** The switch of `getContentType` over a lower-cased extension. */
  function MediaType(ext: string): (r: string)
  {
    if ext == ".txt" then "text/plain"
    else if ext == ".html" then "text/html"
    else if ext == ".jpg" || ext == ".jpeg" then "image/jpeg"
    else if ext == ".png" then "image/png"
    else if ext == ".gif" then "image/gif"
    else if ext == ".pdf" then "application/pdf"
    else if ext == ".zip" then "application/zip"
    else "application/octet-stream"
  }

  /** Every extension the switch does not list, and only those, gets the default type. */
  lemma MediaTypeDefault(ext: string)
    ensures MediaType(ext) == "application/octet-stream" <==> ext !in TableExtensions
  {
  }

  /** A suffix that starts with '.' and holds no other '.' and no '/' is the extension. */
  lemma ExtOfSuffix(stem: string, e: string)
    requires |e| >= 1 && e[0] == '.'
    requires forall i :: 1 <= i < |e| ==> e[i] != '.' && e[i] != '/'
    ensures Ext(stem + e) == e
  {
    var p := stem + e;
    assert p[|stem|] == '.';
    assert forall m :: |stem| < m < |p| ==> p[m] == e[m - |stem|];
  }

  /** Lower-casing leaves a lower-case extension as it is. */
  lemma LowerFixed(e: string)
    requires forall i :: 0 <= i < |e| ==> e[i] == '.' || 'a' <= e[i] <= 'z'
    ensures ToLower(e) == e
  {
  }

  /** The file name `stem + e`, for a lower-case extension `e`, has extension `e`
      after lower-casing. */
  lemma LowerExtOfSuffix(stem: string, e: string)
    requires |e| >= 2 && e[0] == '.'
    requires forall i :: 1 <= i < |e| ==> 'a' <= e[i] <= 'z'
    ensures ToLower(Ext(stem + e)) == e
  {
    ExtOfSuffix(stem, e);
    LowerFixed(e);
  }

  /** The table of `getContentType`, for any file name stem. */
  lemma ContentTypeTable(stem: string)
    ensures ContentType(stem + ".txt") == "text/plain"
    ensures ContentType(stem + ".html") == "text/html"
    ensures ContentType(stem + ".jpg") == "image/jpeg"
    ensures ContentType(stem + ".jpeg") == "image/jpeg"
    ensures ContentType(stem + ".png") == "image/png"
    ensures ContentType(stem + ".gif") == "image/gif"
    ensures ContentType(stem + ".pdf") == "application/pdf"
    ensures ContentType(stem + ".zip") == "application/zip"
  {
    MediaTypeTable();
    TableEntry(stem, ".txt");
    TableEntry(stem, ".html");
    TableEntry(stem, ".jpg");
    TableEntry(stem, ".jpeg");
    TableEntry(stem, ".png");
    TableEntry(stem, ".gif");
    TableEntry(stem, ".pdf");
    TableEntry(stem, ".zip");
  }

  /** The switch of `getContentType`, case by case. */
  lemma MediaTypeTable()
    ensures MediaType(".txt") == "text/plain" && MediaType(".html") == "text/html"
    ensures MediaType(".jpg") == "image/jpeg" && MediaType(".jpeg") == "image/jpeg"
    ensures MediaType(".png") == "image/png" && MediaType(".gif") == "image/gif"
    ensures MediaType(".pdf") == "application/pdf" && MediaType(".zip") == "application/zip"
  {
    TextTypes();
    OtherTypes();
  }

  lemma TextTypes()
    ensures MediaType(".txt") == "text/plain" && MediaType(".html") == "text/html"
    ensures MediaType(".jpg") == "image/jpeg" && MediaType(".jpeg") == "image/jpeg"
  {
  }

  lemma OtherTypes()
    ensures MediaType(".png") == "image/png" && MediaType(".gif") == "image/gif"
    ensures MediaType(".pdf") == "application/pdf" && MediaType(".zip") == "application/zip"
  {
  }

  /** A name ending in one of the listed extensions gets that extension's media type. */
  lemma TableEntry(stem: string, e: string)
    requires e in TableExtensions
    ensures ContentType(stem + e) == MediaType(e)
  {
    assert |e| >= 2 && e[0] == '.';
    assert forall i :: 1 <= i < |e| ==> 'a' <= e[i] <= 'z';
    LowerExtOfSuffix(stem, e);
  }

  /** A file name whose final element has no '.' has no extension and gets the
      default type. */
  lemma ContentTypeWithoutExtension(filename: string)
    requires NoDotInLastElement(filename)
    ensures ContentType(filename) == "application/octet-stream"
  {
  }

  /** A name gets the default type exactly when its lower-cased extension is not
      one of the listed ones: no extension, or any other extension. */
  lemma ContentTypeDefault(filename: string)
    ensures ContentType(filename) == "application/octet-stream" <==> ToLower(Ext(filename)) !in TableExtensions
  {
    MediaTypeDefault(ToLower(Ext(filename)));
  }

  /** Unlisted extensions get the default type; a listed one is found whatever its case. */
  lemma ContentTypeExamples()
    ensures ContentType("a" + ".doc") == "application/octet-stream"
    ensures ContentType("index" + ".htm") == "application/octet-stream"
    ensures ContentType("a.tar" + ".gz") == "application/octet-stream"
    ensures ContentType("Report" + ".PDF") == "application/pdf"
  {
    UnlistedEntry("a", ".doc");
    UnlistedEntry("index", ".htm");
    UnlistedEntry("a.tar", ".gz");
    UpperPdf();
  }

  /** A name ending in a lower-case extension outside the list gets the default type. */
  lemma UnlistedEntry(stem: string, e: string)
    requires e in {".doc", ".htm", ".gz"}
    ensures ContentType(stem + e) == "application/octet-stream"
  {
    assert |e| >= 2 && e[0] == '.';
    assert forall i :: 1 <= i < |e| ==> 'a' <= e[i] <= 'z';
    LowerExtOfSuffix(stem, e);
    UnlistedNotInTable(e);
    MediaTypeDefault(e);
  }

  lemma UnlistedNotInTable(e: string)
    requires e in {".doc", ".htm", ".gz"}
    ensures e !in TableExtensions
  {
  }

  lemma UpperPdf()
    ensures ContentType("Report" + ".PDF") == "application/pdf"
  {
    ExtOfSuffix("Report", ".PDF");
    assert ToLower(".PDF") == ".pdf";
    MediaTypeTable();
  }

  lemma LowerRuneIdempotent(c: char)
    ensures LowerRune(LowerRune(c)) == LowerRune(c)
  {
  }

  /** Lower-casing commutes with taking a suffix. */
  lemma ToLowerSuffix(path: string, j: nat)
    requires j <= |path|
    ensures ToLower(path)[j..] == ToLower(path[j..])
  {
  }

  /** Lower-casing keeps every '.' and '/' where it is, so the scan stops at the
      same index. */
  lemma {:induction false} ScanStopLower(path: string, i: nat)
    requires i <= |path|
    ensures ScanStop(ToLower(path), i) == ScanStop(path, i)
    decreases i
  {
    if i > 0 {
      assert ToLower(path)[i - 1] == LowerRune(path[i - 1]);
      ScanStopLower(path, i - 1);
    }
  }

  /** So the extension of the lower-cased path is the lower-cased extension. */
  lemma ExtLower(path: string)
    ensures Ext(ToLower(path)) == ToLower(Ext(path))
  {
    ScanStopLower(path, |path|);
    var k := ScanStop(path, |path|);
    if k < 0 {
      assert ToLower("") == "";
    } else {
      ToLowerSuffix(path, k);
    }
  }

  /** The lower-cased extension of a lower-cased file name is the lower-cased
      extension of the file name. */
  lemma LowerExtOfLower(filename: string)
    ensures ToLower(Ext(ToLower(filename))) == ToLower(Ext(filename))
  {
    ExtLower(filename);
    var e := Ext(filename);
    forall i | 0 <= i < |e| ensures ToLower(ToLower(e))[i] == ToLower(e)[i] {
      LowerRuneIdempotent(e[i]);
    }
  }

  /** The type depends on the extension only up to case: lower-casing the whole
      file name first changes nothing. */
  lemma ContentTypeIgnoresCase(filename: string)
    ensures ContentType(ToLower(filename)) == ContentType(filename)
  {
    LowerExtOfLower(filename);
  }

  // ---------------------------------------------------------------------------
  // buildMessage, as a specification

  /** The text of a list of lines or parts, one after another. */
  function Concat(ss: seq<string>): (r: string)
  {
    if ss == [] then "" else Concat(ss[..|ss| - 1]) + ss[|ss| - 1]
  }

  lemma {:induction false} ConcatAppend(a: seq<string>, b: seq<string>)
    ensures Concat(a + b) == Concat(a) + Concat(b)
    decreases |b|
  {
    if b != [] {
      ConcatAppend(a, b[..|b| - 1]);
      assert (a + b)[..|a + b| - 1] == a + b[..|b| - 1];
    } else {
      assert a + b == a;
    }
  }

  /** The From field: the display name, when there is one, goes unquoted before
      the address in angle brackets. */
  function FromField(mail: Mail): (r: string)
  {
    if mail.senderName != "" then "From: " + mail.senderName + " <" + mail.sender + ">"
    else "From: " + mail.sender
  }

  /** The subject as an encoded-word (section 2 of RFC 2047) in the 'B' encoding. */
  function EncodedWord(text: string): (r: string)
  {
    "=?utf-8?B?" + Base64.Encode(Utf8.Encode(text)) + "?="
  }

  /** Reads a 'B' encoded-word with the utf-8 charset back as text. */
  function DecodeEncodedWord(w: string): (r: Option<string>)
  {
    var prefix := "=?utf-8?B?";
    if |w| < |prefix| + 2 || w[..|prefix|] != prefix || w[|w| - 2..] != "?=" then None
    else match Base64.Decode(w[|prefix|..|w| - 2])
      case None => None
      case Some(bytes) => Utf8.Decode(bytes)
  }

  /** The subject "Hi" becomes the encoded-word `=?utf-8?B?SGk=?=`. */
  lemma SubjectExample()
    ensures EncodedWord("Hi") == "=?utf-8?B?SGk=?="
  {
    Utf8.AsciiExample();
    Base64.KnownAnswers();
  }

  /** Decoding the encoded-word gives back the subject. */
  lemma EncodedWordRoundTrip(text: string)
    ensures DecodeEncodedWord(EncodedWord(text)) == Some(text)
  {
    var payload := Base64.Encode(Utf8.Encode(text));
    var w := EncodedWord(text);
    assert w[..10] == "=?utf-8?B?";
    assert w[|w| - 2..] == "?=";
    assert w[10..|w| - 2] == payload;
    Base64.DecodeEncode(Utf8.Encode(text));
    Utf8.DecodeEncode(text);
  }

  /** The header fields, in order, each written on its own line. Bcc is not among
      the fields they are made of. */
  function HeaderFields(mail: Mail): (r: seq<string>)
  {
    [VersionField] + ([MultipartField] + ([FromField(mail)] + LaterFields(mail)))
  }

  const HtmlType: string := "Content-Type: text/html; charset=\"utf-8\""
  const PlainType: string := "Content-Type: text/plain; charset=\"utf-8\""
  const SevenBit: string := "Content-Transfer-Encoding: 7bit"
  const Base64Encoding: string := "Content-Transfer-Encoding: base64"

  /** The header lines of the body part: text/html or text/plain, utf-8, 7bit. */
  function BodyHeader(mail: Mail): (r: seq<string>)
  {
    [if mail.isHtml then HtmlType else PlainType, SevenBit]
  }

  /** The body part: its header lines, a blank line, the body as it is. */
  function BodyPart(mail: Mail): (r: string)
  {
    Delimiter + Block(BodyHeader(mail)) + Crlf + mail.body + Crlf
  }

  /** The Content-Type line of an attachment, with the file name as `name`. */
  function AttachmentTypeLine(filename: string): (r: string)
  {
    "Content-Type: " + ContentType(filename) + "; name=\"" + filename + "\""
  }

  /** The Content-Disposition line of an attachment (section 2 of RFC 2183). */
  function DispositionLine(filename: string): (r: string)
  {
    "Content-Disposition: attachment; filename=\"" + filename + "\""
  }

  /** The header lines of an attachment part. */
  function AttachmentHeader(filename: string): (r: seq<string>)
  {
    [AttachmentTypeLine(filename), Base64Encoding, DispositionLine(filename)]
  }

  /** An attachment part: its header lines, a blank line, the base64 payload. */
  function AttachmentPart(filename: string, data: seq<bv8>): (r: string)
  {
    Delimiter + Block(AttachmentHeader(filename)) + Crlf + Base64.Encode(data) + Crlf
  }

  /** `part` of each name of `order` and its data, in that order. The lemmas
      about the order of the parts are stated for any `part`, so that their
      proofs never look inside the rendering of one part. */
  function PartsFor(part: (string, seq<bv8>) -> string, m: map<string, seq<bv8>>, order: seq<string>)
    : (r: seq<string>)
    requires forall k :: k in order ==> k in m
    ensures |r| == |order|
    ensures forall i :: 0 <= i < |order| ==> r[i] == part(order[i], m[order[i]])
  {
    seq(|order|, i requires 0 <= i < |order| => part(order[i], m[order[i]]))
  }

  /** The attachment parts, in the order given. */
  function AttachmentParts(m: map<string, seq<bv8>>, order: seq<string>): (r: seq<string>)
    requires forall k :: k in order ==> k in m
    ensures |r| == |order|
  {
    PartsFor(AttachmentPart, m, order)
  }

  /** All parts: the body first, then the attachments. */
  function Parts(mail: Mail, order: seq<string>): (r: seq<string>)
    requires forall k :: k in order ==> k in mail.attachments
  {
    [BodyPart(mail)] + AttachmentParts(mail.attachments, order)
  }

  /** The whole message `buildMessage` returns. */
  function Rendered(mail: Mail, order: seq<string>): (r: string)
    requires forall k :: k in order ==> k in mail.attachments
  {
    Block(HeaderFields(mail)) + Crlf + Concat(Parts(mail, order)) + CloseDelimiter
  }

  // Regrouping string concatenation. `+` on sequences is associative and Dafny
  // knows it, but inside the large contexts of the message-building proofs it
  // finds the regrouping within the resource limit only when one of these
  // lemmas names the instance; they are kept for that reason alone.

  /** Appending to a builder whose text is `head + part` extends `part`. */
  lemma Extend(message: string, head: string, part: string, x: string)
    requires message == head + part
    ensures message + x == head + (part + x)
  {
  }

  lemma Assoc(a: string, b: string, c: string)
    ensures a + b + c == a + (b + c)
  {
  }

  lemma Regroup3(a: string, b: string, x: string, c: string)
    ensures a + (b + x + c) == (a + b) + x + c
  {
  }

  lemma Regroup(a: string, b: string, c: string, d: string, e: string)
    ensures a + b + c + d + e == a + (b + c + d) + e
  {
  }

  lemma ConcatSnoc(ss: seq<string>, x: string)
    ensures Concat(ss + [x]) == Concat(ss) + x
  {
    assert (ss + [x])[..|ss|] == ss;
  }

  lemma {:induction false} BlockSnoc(lines: seq<string>, x: string)
    ensures Block(lines + [x]) == Block(lines) + (x + Crlf)
  {
    if lines == [] {
      assert [x][1..] == [];
      assert x + Crlf + "" == x + Crlf;
    } else {
      assert (lines + [x])[1..] == lines[1..] + [x];
      BlockSnoc(lines[1..], x);
    }
  }

  /** One more name in the order gives one more part, at the end. */
  lemma PartsForSnoc(part: (string, seq<bv8>) -> string, m: map<string, seq<bv8>>, order: seq<string>, i: nat)
    requires i < |order|
    requires forall k :: k in order ==> k in m
    ensures PartsFor(part, m, order[..i + 1]) == PartsFor(part, m, order[..i]) + [part(order[i], m[order[i]])]
  {
    var a := PartsFor(part, m, order[..i + 1]);
    var b := PartsFor(part, m, order[..i]);
    assert forall j :: 0 <= j < i ==> a[j] == b[j];
  }

  // ---------------------------------------------------------------------------
  // buildMessage

  /** The header block of `buildMessage`, written line by line, and the blank
      line that ends it. */
  method WriteHeader(mail: Mail) returns (message: string)
    ensures message == Block(HeaderFields(mail)) + Crlf
  {
    message := VersionField + Crlf;
    message := message + (MultipartField + Crlf);
    var from := if mail.senderName != "" then "From: " + mail.senderName + " <" + mail.sender + ">"
                else "From: " + mail.sender;
    message := message + (from + Crlf);
    HeaderBlockSplit(mail, from);
    message := WriteLaterFields(message, mail);
    message := message + Crlf;
  }

  /** The header block is the three fixed lines, then the block of the later fields. */
  lemma HeaderBlockSplit(mail: Mail, from: string)
    requires from == FromField(mail)
    ensures Block(HeaderFields(mail))
            == VersionField + Crlf + (MultipartField + Crlf) + (from + Crlf) + Block(LaterFields(mail))
  {
    FixedBlock(VersionField, MultipartField, from);
    BlockAppend([VersionField, MultipartField, from], LaterFields(mail));
    assert [VersionField, MultipartField, from] + LaterFields(mail) == HeaderFields(mail);
  }

  lemma FixedBlock(x: string, y: string, z: string)
    ensures Block([x, y, z]) == x + Crlf + (y + Crlf) + (z + Crlf)
  {
    Block1(z);
    assert [x, y, z][1..] == [y, z] && [y, z][1..] == [z];
  }

  /** A block of one line is that line and CRLF. */
  lemma Block1(x: string)
    ensures Block([x]) == x + Crlf
  {
    assert [x][1..] == [];
  }

  lemma {:induction false} BlockAppend(a: seq<string>, b: seq<string>)
    ensures Block(a + b) == Block(a) + Block(b)
    decreases |a|
  {
    if a == [] {
      assert a + b == b;
    } else {
      assert (a + b)[1..] == a[1..] + b;
      BlockAppend(a[1..], b);
    }
  }

  /** Writes the optional To and Cc fields and the Subject field after `message`. */
  method WriteLaterFields(message: string, mail: Mail) returns (r: string)
    ensures r == message + Block(LaterFields(mail))
  {
    r := message;
    ghost var toFields: seq<string> := [];
    if |mail.to| > 0 {
      var to := "To: " + Join(mail.to, ";");
      Block1(to);
      r, toFields := r + (to + "\r\n"), [to];
    }
    ghost var afterTo := r;
    ghost var ccFields: seq<string> := [];
    if |mail.cc| > 0 {
      var cc := "Cc: " + Join(mail.cc, ";");
      Block1(cc);
      r, ccFields := r + (cc + "\r\n"), [cc];
    }
    ghost var afterCc := r;
    var subject := "Subject: =?utf-8?B?" + Base64.Encode(Utf8.Encode(mail.subject)) + "?=";
    SubjectFieldText(mail.subject);
    Block1(subject);
    r := r + (subject + "\r\n");
    LaterBlock(message, afterTo, afterCc, r, toFields, ccFields, [subject]);
    assert toFields + (ccFields + [subject]) == LaterFields(mail);
  }

  /** Three blocks written one after another make the block of all their lines. */
  lemma LaterBlock(message: string, r1: string, r2: string, r3: string,
                   a: seq<string>, b: seq<string>, c: seq<string>)
    requires r1 == message + Block(a) && r2 == r1 + Block(b) && r3 == r2 + Block(c)
    ensures r3 == message + Block(a + (b + c))
  {
    BlockAppend(b, c);
    BlockAppend(a, b + c);
    Assoc(message + Block(a), Block(b), Block(c));
    Assoc(message, Block(a), Block(b) + Block(c));
  }

  /** The Subject field, as `buildMessage` formats it in one piece. */
  lemma SubjectFieldText(text: string)
    ensures "Subject: " + EncodedWord(text) == "Subject: =?utf-8?B?" + Base64.Encode(Utf8.Encode(text)) + "?="
  {
    assert "Subject: " + "=?utf-8?B?" == "Subject: =?utf-8?B?";
    Regroup3("Subject: ", "=?utf-8?B?", Base64.Encode(Utf8.Encode(text)), "?=");
  }

  /** A part with two header lines, as `buildMessage` writes it line by line. */
  lemma TwoLinePart(d: string, x: string, y: string, content: string)
    ensures d + Block([x, y]) + Crlf + content + Crlf
         == d + (x + Crlf) + (y + Crlf) + Crlf + content + Crlf
  {
    assert [x, y][1..] == [y] && [y][1..] == [];
    assert Block([y]) == y + Crlf + "";
    assert y + Crlf + "" == y + Crlf;
  }

  /** A part with three header lines, as `buildMessage` writes it line by line. */
  lemma ThreeLinePart(d: string, x: string, y: string, z: string, content: string)
    ensures d + Block([x, y, z]) + Crlf + content + Crlf
         == d + (x + Crlf) + (y + Crlf) + (z + Crlf) + Crlf + content + Crlf
  {
    assert [x, y, z][1..] == [y, z] && [y, z][1..] == [z] && [z][1..] == [];
    assert Block([z]) == z + Crlf + "";
    assert z + Crlf + "" == z + Crlf;
  }

  /** Writes the body part after `message`, line by line. */
  method WriteBodyPart(message: string, mail: Mail) returns (r: string)
    ensures r == message + BodyPart(mail)
  {
    r := message + Delimiter;
    ghost var part := Delimiter;
    var typeLine := if mail.isHtml then HtmlType + "\r\n" else PlainType + "\r\n";
    Extend(r, message, part, typeLine);
    r, part := r + typeLine, part + typeLine;
    Extend(r, message, part, SevenBit + "\r\n");
    r, part := r + (SevenBit + "\r\n"), part + (SevenBit + "\r\n");
    Extend(r, message, part, Crlf);
    r, part := r + Crlf, part + Crlf;
    Extend(r, message, part, mail.body);
    r, part := r + mail.body, part + mail.body;
    Extend(r, message, part, Crlf);
    r, part := r + Crlf, part + Crlf;
    TwoLinePart(Delimiter, BodyHeader(mail)[0], SevenBit, mail.body);
  }

  /** Writes one attachment part after `message`, line by line. */
  method WriteAttachmentPart(message: string, filename: string, data: seq<bv8>) returns (r: string)
    ensures r == message + AttachmentPart(filename, data)
  {
    r := message + Delimiter;
    ghost var part := Delimiter;
    var contentType := ContentType(filename);
    AttachmentLines(filename, contentType);
    var line := "Content-Type: " + contentType + "; name=\"" + filename + "\"\r\n";
    Extend(r, message, part, line);
    r, part := r + line, part + line;
    Extend(r, message, part, Base64Encoding + "\r\n");
    r, part := r + (Base64Encoding + "\r\n"), part + (Base64Encoding + "\r\n");
    line := "Content-Disposition: attachment; filename=\"" + filename + "\"\r\n";
    Extend(r, message, part, line);
    r, part := r + line, part + line;
    Extend(r, message, part, Crlf);
    r, part := r + Crlf, part + Crlf;
    var payload := Base64.Encode(data);
    Extend(r, message, part, payload);
    r, part := r + payload, part + payload;
    Extend(r, message, part, Crlf);
    r, part := r + Crlf, part + Crlf;
    ThreeLinePart(Delimiter, AttachmentTypeLine(filename), Base64Encoding, DispositionLine(filename), payload);
  }

  /** The two header lines of an attachment part, as written, are its header fields and CRLF. */
  lemma AttachmentLines(filename: string, contentType: string)
    ensures "Content-Type: " + contentType + "; name=\"" + filename + "\"\r\n"
            == "Content-Type: " + contentType + "; name=\"" + filename + "\"" + Crlf
    ensures "Content-Disposition: attachment; filename=\"" + filename + "\"\r\n" == DispositionLine(filename) + Crlf
  {
  }

  /** Writes one part per attachment after `message`, visiting the names in `order`. */
  method WriteAttachmentParts(message: string, m: map<string, seq<bv8>>, order: seq<string>)
    returns (r: string)
    requires forall k :: k in order ==> k in m
    ensures r == message + Concat(AttachmentParts(m, order))
  {
    r := message;
    for i := 0 to |order|
      invariant r == message + Concat(AttachmentParts(m, order[..i]))
    {
      r := WriteNextAttachment(r, message, m, order, i);
    }
    assert order[..|order|] == order;
  }

  /** One turn of the loop over the attachments: the part of the next name is
      written after the parts of the names before it. */
  method WriteNextAttachment(written: string, message: string, m: map<string, seq<bv8>>, order: seq<string>, i: nat)
    returns (r: string)
    requires i < |order|
    requires forall k :: k in order ==> k in m
    requires written == message + Concat(AttachmentParts(m, order[..i]))
    ensures r == message + Concat(AttachmentParts(m, order[..i + 1]))
  {
    var filename := order[i];
    var data := m[filename];
    r := WriteAttachmentPart(written, filename, data);
    WrittenPartsSnoc(AttachmentPart, message, m, order, i);
  }

  /** Writing the part for the next name extends the text of the parts so far. */
  lemma WrittenPartsSnoc(part: (string, seq<bv8>) -> string, message: string, m: map<string, seq<bv8>>,
                         order: seq<string>, i: nat)
    requires i < |order|
    requires forall k :: k in order ==> k in m
    ensures message + Concat(PartsFor(part, m, order[..i])) + part(order[i], m[order[i]])
            == message + Concat(PartsFor(part, m, order[..i + 1]))
  {
    var parts := PartsFor(part, m, order[..i]);
    PartsForSnoc(part, m, order, i);
    ConcatSnoc(parts, part(order[i], m[order[i]]));
  }

  /** The parts, written one after another: the body part, then the attachments. */
  lemma PartsText(mail: Mail, order: seq<string>)
    requires forall k :: k in order ==> k in mail.attachments
    ensures Concat(Parts(mail, order)) == BodyPart(mail) + Concat(AttachmentParts(mail.attachments, order))
  {
    var b := BodyPart(mail);
    ConcatAppend([b], AttachmentParts(mail.attachments, order));
    assert [b][..0] == [];
    assert Concat([b]) == "" + b;
    assert "" + b == b;
  }

  /** `buildMessage`: the header block, the body part, one part per attachment
      (visited in `order`, the order Go's map iteration happens to take), then the
      close delimiter. */
  method BuildMessage(mail: Mail, order: seq<string>) returns (message: string)
    requires forall k :: k in order ==> k in mail.attachments
    ensures message == Rendered(mail, order)
  {
    message := WriteHeader(mail);
    ghost var head := message;
    message := WriteBodyPart(message, mail);
    ghost var body := message;
    message := WriteAttachmentParts(message, mail.attachments, order);
    PartsText(mail, order);
    Extend(body, head, BodyPart(mail), Concat(AttachmentParts(mail.attachments, order)));
    message := message + CloseDelimiter;
  }

  // ---------------------------------------------------------------------------
  // Reading a part back

  /** The first index at or after `from` where a CRLF starts. */
  function FirstCrlf(s: string, from: nat): (r: Option<nat>)
    ensures r.Some? ==> from <= r.value && r.value + 2 <= |s| && s[r.value] == '\r' && s[r.value + 1] == '\n'
    decreases |s| - from
  {
    if from + 2 > |s| then None
    else if s[from] == '\r' && s[from + 1] == '\n' then Some(from)
    else FirstCrlf(s, from + 1)
  }

  /** Reads header lines up to the blank line that ends them (section 2.1 of
      RFC 5322): the lines without their CRLF, and what follows the blank line. */
  function ReadHeader(s: string): (r: Option<(seq<string>, string)>)
    decreases |s|
  {
    if |s| >= 2 && s[0] == '\r' && s[1] == '\n' then Some(([], s[2..]))
    else match FirstCrlf(s, 0)
      case None => None
      case Some(k) =>
        match ReadHeader(s[k + 2..])
          case None => None
          case Some(res) => Some(([s[..k]] + res.0, res.1))
  }

  /** Header lines, each followed by CRLF. */
  function Block(lines: seq<string>): (r: string)
  {
    if lines == [] then "" else lines[0] + Crlf + Block(lines[1..])
  }

  /** A line that can stand in a header block: not empty, no CR in it. */
  predicate IsHeaderText(line: string)
  {
    line != "" && forall i :: 0 <= i < |line| ==> line[i] != '\r'
  }

  /** Reads a part: a delimiter line, a header block, the content and a final CRLF. */
  function ReadPart(p: string): (r: Option<(seq<string>, string)>)
  {
    if |p| >= |Delimiter| + 2 && p[..|Delimiter|] == Delimiter && p[|p| - 2..] == Crlf
    then ReadHeader(p[|Delimiter|..|p| - 2])
    else None
  }

  lemma {:induction false} FirstCrlfAfter(line: string, rest: string, i: nat)
    requires IsHeaderText(line) && i <= |line|
    ensures FirstCrlf(line + Crlf + rest, i) == Some(|line|)
    decreases |line| - i
  {
    var s := line + Crlf + rest;
    if i < |line| {
      assert s[i] == line[i];
      FirstCrlfAfter(line, rest, i + 1);
    } else {
      assert s[i] == '\r' && s[i + 1] == '\n';
    }
  }

  /** Reading a header block written with `Block` gives back its lines and the
      text after the blank line. */
  lemma {:induction false} ReadHeaderBlock(lines: seq<string>, rest: string)
    requires forall i :: 0 <= i < |lines| ==> IsHeaderText(lines[i])
    ensures ReadHeader(Block(lines) + Crlf + rest) == Some((lines, rest))
  {
    var s := Block(lines) + Crlf + rest;
    if lines == [] {
      assert s == Crlf + rest;
      assert s[2..] == rest;
    } else {
      var tail := Block(lines[1..]) + Crlf + rest;
      assert s == lines[0] + Crlf + tail;
      assert s[0] == lines[0][0] != '\r';
      FirstCrlfAfter(lines[0], tail, 0);
      assert s[|lines[0]| + 2..] == tail;
      assert s[..|lines[0]|] == lines[0];
      ReadHeaderBlock(lines[1..], rest);
      assert [lines[0]] + lines[1..] == lines;
    }
  }

  /** The three pieces of `a + b + c` can be cut out again. */
  lemma Pieces(a: string, b: string, c: string)
    ensures (a + b + c)[..|a|] == a
    ensures (a + b + c)[|a|..|a| + |b|] == b
    ensures (a + b + c)[|a| + |b|..] == c
  {
  }

  /** A part made of a delimiter, a header block, a blank line, content and CRLF
      reads back as its header lines and content. */
  lemma ReadPartOf(lines: seq<string>, content: string)
    requires forall i :: 0 <= i < |lines| ==> IsHeaderText(lines[i])
    ensures ReadPart(Delimiter + Block(lines) + Crlf + content + Crlf) == Some((lines, content))
  {
    var inner := Block(lines) + Crlf + content;
    Regroup(Delimiter, Block(lines), Crlf, content, Crlf);
    Pieces(Delimiter, inner, Crlf);
    ReadHeaderBlock(lines, content);
  }

  /** No carriage return in `s`. */
  predicate NoCr(s: string)
  {
    forall i :: 0 <= i < |s| ==> s[i] != '\r'
  }

  lemma NoCrConcat(a: string, b: string)
    ensures NoCr(a + b) <==> NoCr(a) && NoCr(b)
  {
    if NoCr(a + b) {
      assert forall i :: 0 <= i < |a| ==> a[i] == (a + b)[i];
      assert forall i :: 0 <= i < |b| ==> b[i] == (a + b)[|a| + i];
    }
  }

  lemma ContentTypeNoCr(filename: string)
    ensures NoCr(ContentType(filename))
  {
    MediaTypeNoCr(ToLower(Ext(filename)));
  }

  lemma MediaTypeNoCr(ext: string)
    ensures NoCr(MediaType(ext))
  {
    if ext == ".txt" {
      assert NoCr("text/plain");
    } else if ext == ".html" {
      assert NoCr("text/html");
    } else if ext == ".jpg" || ext == ".jpeg" {
      assert NoCr("image/jpeg");
    } else if ext == ".png" {
      assert NoCr("image/png");
    } else if ext == ".gif" {
      assert NoCr("image/gif");
    } else if ext == ".pdf" {
      assert NoCr("application/pdf");
    } else if ext == ".zip" {
      assert NoCr("application/zip");
    } else {
      NoCrConcat("application/", "octet-stream");
      assert "application/" + "octet-stream" == "application/octet-stream";
    }
  }

  /** The body part reads back as its two header lines and the body, whatever the
      body holds; its type is text/html exactly when the mail says HTML. */
  lemma BodyPartReadsBack(mail: Mail)
    ensures ReadPart(BodyPart(mail))
         == Some(([if mail.isHtml then "Content-Type: text/html; charset=\"utf-8\""
                   else "Content-Type: text/plain; charset=\"utf-8\"",
                   "Content-Transfer-Encoding: 7bit"], mail.body))
  {
    assert NoCr(HtmlType) && NoCr(PlainType) && NoCr(SevenBit);
    ReadPartOf(BodyHeader(mail), mail.body);
  }

  lemma HeaderLiteralsNoCr()
    ensures NoCr("Content-Type: ") && NoCr("; name=\"") && NoCr("\"")
    ensures NoCr("Content-Disposition: attachment; filename=\"") && NoCr(Base64Encoding)
  {
  }

  lemma TypeLineNoCr(filename: string)
    requires NoCr(filename)
    ensures NoCr(AttachmentTypeLine(filename))
  {
    HeaderLiteralsNoCr();
    ContentTypeNoCr(filename);
    var a := "Content-Type: " + ContentType(filename);
    NoCrConcat("Content-Type: ", ContentType(filename));
    NoCrConcat(a, "; name=\"");
    NoCrConcat(a + "; name=\"", filename);
    NoCrConcat(a + "; name=\"" + filename, "\"");
  }

  lemma DispositionLineNoCr(filename: string)
    requires NoCr(filename)
    ensures NoCr(DispositionLine(filename))
  {
    HeaderLiteralsNoCr();
    var a := "Content-Disposition: attachment; filename=\"";
    NoCrConcat(a, filename);
    NoCrConcat(a + filename, "\"");
  }

  lemma AttachmentHeaderText(filename: string)
    requires NoCr(filename)
    ensures forall i :: 0 <= i < |AttachmentHeader(filename)| ==> IsHeaderText(AttachmentHeader(filename)[i])
  {
    TypeLineNoCr(filename);
    DispositionLineNoCr(filename);
    HeaderLiteralsNoCr();
  }

  /** An attachment part whose file name holds no CR reads back as its three
      header lines (the media type of the name, base64, the disposition with the
      name) and a payload that decodes to the attachment's bytes. The payload
      holds only base64 characters, so neither CRLF nor a boundary can occur in it. */
  lemma AttachmentPartReadsBack(filename: string, data: seq<bv8>)
    requires NoCr(filename)
    ensures ReadPart(AttachmentPart(filename, data)).Some?
    ensures var (header, payload) := ReadPart(AttachmentPart(filename, data)).value;
            && header == ["Content-Type: " + ContentType(filename) + "; name=\"" + filename + "\"",
                          "Content-Transfer-Encoding: base64",
                          "Content-Disposition: attachment; filename=\"" + filename + "\""]
            && Base64.Decode(payload) == Some(data)
            && forall i :: 0 <= i < |payload| ==> Base64.IsAlphabet(payload[i]) || payload[i] == '='
  {
    AttachmentHeaderText(filename);
    ReadPartOf(AttachmentHeader(filename), Base64.Encode(data));
    Base64.DecodeEncode(data);
    Base64.EncodeCharacters(data);
  }

  // ---------------------------------------------------------------------------
  // Header fields

  /** The value of a header line for the field `name` (section 2.2 of RFC 5322,
      with the single space this writer puts after the colon). */
  function Field(line: string, name: string): (r: Option<string>)
    ensures r.Some? ==> line == name + ": " + r.value
  {
    var p := name + ": ";
    if |line| >= |p| && line[..|p|] == p then Some(line[|p|..]) else None
  }

  /** The value of the first field called `name`, if any. */
  function FieldValue(fields: seq<string>, name: string): (r: Option<string>)
    ensures r.Some? ==> exists i :: 0 <= i < |fields| && fields[i] == name + ": " + r.value
    ensures r.None? ==> forall i :: 0 <= i < |fields| ==> Field(fields[i], name).None?
  {
    if fields == [] then None
    else if Field(fields[0], name).Some? then Field(fields[0], name)
    else
      var r := FieldValue(fields[1..], name);
      assert forall i :: 1 <= i < |fields| ==> fields[i] == fields[1..][i - 1];
      r
  }

  lemma FieldOf(name: string, v: string)
    ensures Field(name + ": " + v, name) == Some(v)
  {
    var line := name + ": " + v;
    assert line[..|name + ": "|] == name + ": ";
  }

  lemma FieldValueCons(x: string, rest: seq<string>, name: string)
    ensures FieldValue([x] + rest, name) == if Field(x, name).Some? then Field(x, name) else FieldValue(rest, name)
  {
    assert ([x] + rest)[1..] == rest;
  }

  /** A line whose first differing character tells it apart is not a `name` field. */
  lemma NotField(line: string, name: string, i: nat)
    requires i < |name| + 2 && i < |line| && line[i] != (name + ": ")[i]
    ensures Field(line, name).None?
  {
  }

  /** The fixed lines of the header block start with 'M', 'C', 'F' and 'S'. */
  lemma FixedFieldsStart(mail: Mail)
    ensures VersionField[0] == 'M' && MultipartField[0] == 'C' && MultipartField[1] == 'o'
    ensures FromField(mail)[0] == 'F' && ("Subject: " + EncodedWord(mail.subject))[0] == 'S'
  {
  }

  /** The From field carries the display name, unquoted, before the address in
      angle brackets, or the address alone when there is no name. */
  lemma FromHeader(mail: Mail)
    ensures FieldValue(HeaderFields(mail), "From")
         == Some(if mail.senderName != "" then mail.senderName + " <" + mail.sender + ">" else mail.sender)
  {
    FromFieldValue(mail);
    FixedFieldsNotFrom();
    var rest := LaterFields(mail);
    FieldValueCons(VersionField, [MultipartField] + ([FromField(mail)] + rest), "From");
    FieldValueCons(MultipartField, [FromField(mail)] + rest, "From");
    FieldValueCons(FromField(mail), rest, "From");
  }

  lemma FromFieldValue(mail: Mail)
    ensures Field(FromField(mail), "From")
         == Some(if mail.senderName != "" then mail.senderName + " <" + mail.sender + ">" else mail.sender)
  {
    var v := if mail.senderName != "" then mail.senderName + " <" + mail.sender + ">" else mail.sender;
    assert FromField(mail) == "From: " + v;
    FieldOf("From", v);
  }

  lemma FixedFieldsNotFrom()
    ensures Field(VersionField, "From").None? && Field(MultipartField, "From").None?
  {
    assert VersionField[0] == 'M' && MultipartField[0] == 'C';
    NotField(VersionField, "From", 0);
    NotField(MultipartField, "From", 0);
  }

  lemma FieldValueOptional(present: bool, x: string, rest: seq<string>, name: string)
    ensures FieldValue((if present then [x] else []) + rest, name)
         == if present && Field(x, name).Some? then Field(x, name) else FieldValue(rest, name)
  {
    if present {
      FieldValueCons(x, rest, name);
    } else {
      assert [] + rest == rest;
    }
  }

  /** The header fields after From: the optional To and Cc fields, then Subject. */
  function LaterFields(mail: Mail): (r: seq<string>)
  {
    (if |mail.to| > 0 then ["To: " + Join(mail.to, ";")] else [])
    + ((if |mail.cc| > 0 then ["Cc: " + Join(mail.cc, ";")] else [])
    + ["Subject: " + EncodedWord(mail.subject)])
  }

  /** None of the three fixed fields is called `name`. */
  lemma FixedFieldsNotNamed(mail: Mail, name: string)
    requires |name| >= 2 && name[0] != 'M' && name[0] != 'F' && (name[0] != 'C' || name[1] != 'o')
    ensures Field(VersionField, name).None? && Field(MultipartField, name).None?
    ensures Field(FromField(mail), name).None?
  {
    FixedFieldsStart(mail);
    NotField(VersionField, name, 0);
    if name[0] == 'C' {
      NotField(MultipartField, name, 1);
    } else {
      NotField(MultipartField, name, 0);
    }
    NotField(FromField(mail), name, 0);
  }

  /** Looking a field up in the header block: the three fixed fields, then the rest. */
  lemma HeaderLookup(mail: Mail, name: string)
    requires |name| >= 2 && name[0] != 'M' && name[0] != 'F' && (name[0] != 'C' || name[1] != 'o')
    ensures FieldValue(HeaderFields(mail), name) == FieldValue(LaterFields(mail), name)
  {
    FixedFieldsNotNamed(mail, name);
    var rest := LaterFields(mail);
    FieldValueCons(VersionField, [MultipartField] + ([FromField(mail)] + rest), name);
    FieldValueCons(MultipartField, [FromField(mail)] + rest, name);
    FieldValueCons(FromField(mail), rest, name);
  }

  /** A To field is written exactly when there are To recipients, and it carries
      them joined with ';'. */
  lemma ToHeader(mail: Mail)
    ensures FieldValue(HeaderFields(mail), "To") == if |mail.to| > 0 then Some(Join(mail.to, ";")) else None
  {
    HeaderLookup(mail, "To");
    var cc := if |mail.cc| > 0 then ["Cc: " + Join(mail.cc, ";")] else [];
    var subject := "Subject: " + EncodedWord(mail.subject);
    FieldOf("To", Join(mail.to, ";"));
    FieldValueOptional(|mail.to| > 0, "To: " + Join(mail.to, ";"), cc + [subject], "To");
    NotField("Cc: " + Join(mail.cc, ";"), "To", 0);
    FieldValueOptional(|mail.cc| > 0, "Cc: " + Join(mail.cc, ";"), [subject], "To");
    NotField(subject, "To", 0);
    FieldValueCons(subject, [], "To");
  }

  /** A Cc field is written exactly when there are Cc recipients, and it carries
      them joined with ';'. */
  lemma CcHeader(mail: Mail)
    ensures FieldValue(HeaderFields(mail), "Cc") == if |mail.cc| > 0 then Some(Join(mail.cc, ";")) else None
  {
    HeaderLookup(mail, "Cc");
    var cc := if |mail.cc| > 0 then ["Cc: " + Join(mail.cc, ";")] else [];
    var subject := "Subject: " + EncodedWord(mail.subject);
    NotField("To: " + Join(mail.to, ";"), "Cc", 0);
    FieldValueOptional(|mail.to| > 0, "To: " + Join(mail.to, ";"), cc + [subject], "Cc");
    FieldOf("Cc", Join(mail.cc, ";"));
    FieldValueOptional(|mail.cc| > 0, "Cc: " + Join(mail.cc, ";"), [subject], "Cc");
    NotField(subject, "Cc", 0);
    FieldValueCons(subject, [], "Cc");
  }

  /** No Bcc field is ever written. */
  lemma NoBccHeader(mail: Mail)
    ensures FieldValue(HeaderFields(mail), "Bcc") == None
  {
    HeaderLookup(mail, "Bcc");
    var cc := if |mail.cc| > 0 then ["Cc: " + Join(mail.cc, ";")] else [];
    var subject := "Subject: " + EncodedWord(mail.subject);
    NotField("To: " + Join(mail.to, ";"), "Bcc", 0);
    FieldValueOptional(|mail.to| > 0, "To: " + Join(mail.to, ";"), cc + [subject], "Bcc");
    NotField("Cc: " + Join(mail.cc, ";"), "Bcc", 0);
    FieldValueOptional(|mail.cc| > 0, "Cc: " + Join(mail.cc, ";"), [subject], "Bcc");
    NotField(subject, "Bcc", 0);
    FieldValueCons(subject, [], "Bcc");
  }

  /** The Subject field holds the subject as an encoded-word, which decodes back
      to the subject. */
  lemma SubjectHeader(mail: Mail)
    ensures FieldValue(HeaderFields(mail), "Subject") == Some(EncodedWord(mail.subject))
    ensures DecodeEncodedWord(EncodedWord(mail.subject)) == Some(mail.subject)
  {
    HeaderLookup(mail, "Subject");
    var cc := if |mail.cc| > 0 then ["Cc: " + Join(mail.cc, ";")] else [];
    var subject := "Subject: " + EncodedWord(mail.subject);
    NotField("To: " + Join(mail.to, ";"), "Subject", 0);
    FieldValueOptional(|mail.to| > 0, "To: " + Join(mail.to, ";"), cc + [subject], "Subject");
    NotField("Cc: " + Join(mail.cc, ";"), "Subject", 0);
    FieldValueOptional(|mail.cc| > 0, "Cc: " + Join(mail.cc, ";"), [subject], "Subject");
    FieldOf("Subject", EncodedWord(mail.subject));
    FieldValueCons(subject, [], "Subject");
    EncodedWordRoundTrip(mail.subject);
  }

  /** When no address holds ';', the To field splits back into the To list. */
  lemma ToRecipients(mail: Mail)
    requires |mail.to| > 0
    requires forall i :: 0 <= i < |mail.to| ==> ';' !in mail.to[i]
    ensures FieldValue(HeaderFields(mail), "To").Some?
    ensures Split(FieldValue(HeaderFields(mail), "To").value, ';') == mail.to
  {
    ToHeader(mail);
    SplitJoin(mail.to, ';');
  }

  /** Blind copies stay blind: the message does not depend on Bcc at all. */
  lemma BccNotRendered(mail: Mail, bcc: seq<string>, order: seq<string>)
    requires forall k :: k in order ==> k in mail.attachments
    ensures Rendered(mail.(bcc := bcc), order) == Rendered(mail, order)
  {
    assert HeaderFields(mail.(bcc := bcc)) == HeaderFields(mail);
    assert Parts(mail.(bcc := bcc), order) == Parts(mail, order);
  }

  // ---------------------------------------------------------------------------
  // The message as a whole

  /** The first two lines of the header block. */
  lemma HeaderBlockOpening(mail: Mail)
    ensures Block(HeaderFields(mail))
         == "MIME-Version: 1.0" + "\r\n" + ("Content-Type: " + "multipart/mixed; boundary=\"myboundary\"" + "\r\n")
            + Block([FromField(mail)] + LaterFields(mail))
  {
    var rest := [FromField(mail)] + LaterFields(mail);
    assert HeaderFields(mail) == [VersionField, MultipartField] + rest;
    BlockAppend([VersionField, MultipartField], rest);
    OpeningBlock();
  }

  /** The block of the two fixed lines, spelled out. */
  lemma OpeningBlock()
    ensures Block([VersionField, MultipartField])
         == "MIME-Version: 1.0" + "\r\n" + ("Content-Type: " + "multipart/mixed; boundary=\"myboundary\"" + "\r\n")
  {
    Block1(MultipartField);
    assert [VersionField, MultipartField][1..] == [MultipartField];
  }

  /** The message always opens with the MIME-Version and multipart Content-Type
      lines and always ends with the close delimiter, with no line break after it. */
  lemma RenderedFrame(mail: Mail, order: seq<string>)
    requires forall k :: k in order ==> k in mail.attachments
    ensures var m := Rendered(mail, order);
            var opening := "MIME-Version: 1.0" + "\r\n" + ("Content-Type: " + "multipart/mixed; boundary=\"myboundary\"" + "\r\n");
            |m| >= |opening| + |CloseDelimiter|
            && m[..|opening|] == opening
            && m[|m| - |CloseDelimiter|..] == "--myboundary--"
  {
    var opening := "MIME-Version: 1.0" + "\r\n" + ("Content-Type: " + "multipart/mixed; boundary=\"myboundary\"" + "\r\n");
    var rest := Block([FromField(mail)] + LaterFields(mail));
    var tail := rest + Crlf + Concat(Parts(mail, order));
    HeaderBlockOpening(mail);
    Regroup(opening, rest, Crlf, Concat(Parts(mail, order)), CloseDelimiter);
    Pieces(opening, tail, CloseDelimiter);
  }

  /** Every header field is one line when the sender, the display name and the To
      and Cc addresses hold no CR. */
  lemma HeaderFieldsAreLines(mail: Mail)
    requires NoCr(mail.sender) && NoCr(mail.senderName)
    requires forall i :: 0 <= i < |mail.to| ==> NoCr(mail.to[i])
    requires forall i :: 0 <= i < |mail.cc| ==> NoCr(mail.cc[i])
    ensures forall i :: 0 <= i < |HeaderFields(mail)| ==> IsHeaderText(HeaderFields(mail)[i])
  {
    assert NoCr(VersionField) && NoCr(MultipartField);
    FromFieldIsLine(mail);
    LaterFieldsAreLines(mail);
    var later := LaterFields(mail);
    LinesAppend([FromField(mail)], later);
    LinesAppend([MultipartField], [FromField(mail)] + later);
    LinesAppend([VersionField], [MultipartField] + ([FromField(mail)] + later));
  }

  lemma LaterFieldsAreLines(mail: Mail)
    requires forall i :: 0 <= i < |mail.to| ==> NoCr(mail.to[i])
    requires forall i :: 0 <= i < |mail.cc| ==> NoCr(mail.cc[i])
    ensures forall i :: 0 <= i < |LaterFields(mail)| ==> IsHeaderText(LaterFields(mail)[i])
  {
    var to := if |mail.to| > 0 then ["To: " + Join(mail.to, ";")] else [];
    var cc := if |mail.cc| > 0 then ["Cc: " + Join(mail.cc, ";")] else [];
    var subject := ["Subject: " + EncodedWord(mail.subject)];
    if |mail.to| > 0 {
      JoinNoCr(mail.to);
      NoCrConcat("To: ", Join(mail.to, ";"));
    }
    if |mail.cc| > 0 {
      JoinNoCr(mail.cc);
      NoCrConcat("Cc: ", Join(mail.cc, ";"));
    }
    EncodedWordNoCr(mail.subject);
    NoCrConcat("Subject: ", EncodedWord(mail.subject));
    LinesAppend(cc, subject);
    LinesAppend(to, cc + subject);
  }

  lemma LinesAppend(a: seq<string>, b: seq<string>)
    requires forall i :: 0 <= i < |a| ==> IsHeaderText(a[i])
    requires forall i :: 0 <= i < |b| ==> IsHeaderText(b[i])
    ensures forall i :: 0 <= i < |a + b| ==> IsHeaderText((a + b)[i])
  {
    forall i | 0 <= i < |a + b| ensures IsHeaderText((a + b)[i]) {
      if i >= |a| {
        assert (a + b)[i] == b[i - |a|];
      }
    }
  }

  lemma FromFieldIsLine(mail: Mail)
    requires NoCr(mail.sender) && NoCr(mail.senderName)
    ensures NoCr(FromField(mail))
  {
    if mail.senderName != "" {
      NoCrConcat("From: ", mail.senderName);
      NoCrConcat("From: " + mail.senderName, " <");
      NoCrConcat("From: " + mail.senderName + " <", mail.sender);
      NoCrConcat("From: " + mail.senderName + " <" + mail.sender, ">");
    } else {
      NoCrConcat("From: ", mail.sender);
    }
  }

  lemma JoinNoCr(xs: seq<string>)
    requires forall i :: 0 <= i < |xs| ==> NoCr(xs[i])
    ensures NoCr(Join(xs, ";"))
  {
    JoinCharacters(xs, ";", c => c != '\r');
  }

  lemma EncodedWordNoCr(text: string)
    ensures NoCr(EncodedWord(text))
  {
    var payload := Base64.Encode(Utf8.Encode(text));
    Base64.EncodeCharacters(Utf8.Encode(text));
    NoCrConcat("=?utf-8?B?", payload);
    NoCrConcat("=?utf-8?B?" + payload, "?=");
  }

  /** With no CR in the sender, the display name and the To and Cc addresses, the
      header block reads back as the header fields, and what follows the blank line
      is the parts and the close delimiter. */
  lemma HeaderReadsBack(mail: Mail, order: seq<string>)
    requires forall k :: k in order ==> k in mail.attachments
    requires NoCr(mail.sender) && NoCr(mail.senderName)
    requires forall i :: 0 <= i < |mail.to| ==> NoCr(mail.to[i])
    requires forall i :: 0 <= i < |mail.cc| ==> NoCr(mail.cc[i])
    ensures ReadHeader(Rendered(mail, order))
         == Some((HeaderFields(mail), Concat(Parts(mail, order)) + CloseDelimiter))
  {
    HeaderFieldsAreLines(mail);
    RenderedHead(mail, order);
    ReadHeaderBlock(HeaderFields(mail), Concat(Parts(mail, order)) + CloseDelimiter);
  }

  lemma RenderedHead(mail: Mail, order: seq<string>)
    requires forall k :: k in order ==> k in mail.attachments
    ensures Rendered(mail, order) == Block(HeaderFields(mail)) + Crlf + (Concat(Parts(mail, order)) + CloseDelimiter)
  {
    Assoc(Block(HeaderFields(mail)) + Crlf, Concat(Parts(mail, order)), CloseDelimiter);
  }

  // ---------------------------------------------------------------------------
  // Attachment order

  lemma DistinctPrefix(o: seq<string>)
    requires Distinct(o) && o != []
    ensures Distinct(o[..|o| - 1]) && o[|o| - 1] !in o[..|o| - 1]
  {
    var p := o[..|o| - 1];
    forall i | 0 <= i < |p| ensures p[i] !in p[..i] {
      assert p[i] == o[i] && p[..i] == o[..i];
    }
  }

  /** A name occurs once in a distinct order when it occurs at all. */
  lemma {:induction false} DistinctCount(o: seq<string>, k: string)
    requires Distinct(o)
    ensures multiset(o)[k] == if k in o then 1 else 0
  {
    if o != [] {
      var p := o[..|o| - 1];
      DistinctPrefix(o);
      DistinctCount(p, k);
      assert o == p + [o[|o| - 1]];
    }
  }

  lemma {:induction false} DistinctCard(o: seq<string>)
    requires Distinct(o)
    ensures |set k | k in o| == |o|
  {
    if o != [] {
      var p := o[..|o| - 1];
      var x := o[|o| - 1];
      DistinctPrefix(o);
      DistinctCard(p);
      assert o == p + [x];
      assert (set k | k in o) == (set k | k in p) + {x};
    }
  }

  /** An order of the attachments lists as many names as there are attachments. */
  lemma EnumerationSize(order: seq<string>, m: map<string, seq<bv8>>)
    requires IsEnumeration(order, m)
    ensures |order| == |m|
  {
    DistinctCard(order);
    assert (set k | k in order) == m.Keys;
  }

  /** The message has exactly one body part and one part per attachment, the body
      part first. */
  lemma PartCount(mail: Mail, order: seq<string>)
    requires IsEnumeration(order, mail.attachments)
    ensures |Parts(mail, order)| == 1 + |mail.attachments|
    ensures Parts(mail, order)[0] == BodyPart(mail)
    ensures forall i :: 1 <= i < |Parts(mail, order)| ==>
              Parts(mail, order)[i] == AttachmentPart(order[i - 1], mail.attachments[order[i - 1]])
  {
    EnumerationSize(order, mail.attachments);
    var m := mail.attachments;
    var ap := AttachmentParts(m, order);
    assert Parts(mail, order) == [BodyPart(mail)] + ap;
    forall i | 1 <= i < |Parts(mail, order)|
      ensures Parts(mail, order)[i] == AttachmentPart(order[i - 1], m[order[i - 1]])
    {
      assert Parts(mail, order)[i] == ap[i - 1];
    }
  }

  /** Two orders of the same attachments hold the same names. */
  lemma EnumerationsAgree(o1: seq<string>, o2: seq<string>, m: map<string, seq<bv8>>)
    requires IsEnumeration(o1, m) && IsEnumeration(o2, m)
    ensures multiset(o1) == multiset(o2)
  {
    forall k ensures multiset(o1)[k] == multiset(o2)[k] {
      DistinctCount(o1, k);
      DistinctCount(o2, k);
    }
  }

  /** The parts of two orders one after the other are the parts of each, one after the other. */
  lemma PartsForAppend(part: (string, seq<bv8>) -> string, m: map<string, seq<bv8>>, a: seq<string>, b: seq<string>)
    requires forall k :: k in a + b ==> k in m
    ensures forall k :: k in a ==> k in m
    ensures forall k :: k in b ==> k in m
    ensures PartsFor(part, m, a + b) == PartsFor(part, m, a) + PartsFor(part, m, b)
  {
    assert forall k :: k in a ==> k in a + b;
    assert forall k :: k in b ==> k in a + b;
    var l, r, lr := PartsFor(part, m, a), PartsFor(part, m, b), PartsFor(part, m, a + b);
    forall i | 0 <= i < |lr| ensures lr[i] == (l + r)[i] {
      if i >= |a| {
        assert (a + b)[i] == b[i - |a|];
      }
    }
  }

  lemma PermuteStep(p: seq<string>, a: seq<string>, b: seq<string>, q: string)
    requires multiset(p) == multiset(a + b)
    ensures multiset(p + [q]) == multiset(a + [q] + b)
  {
  }

  /** The last name of `o1` occurs in `o2`; without it, the two hold the same names. */
  lemma RemoveLast(o1: seq<string>, o2: seq<string>) returns (j: nat)
    requires multiset(o1) == multiset(o2) && o1 != []
    ensures j < |o2| && o2[j] == o1[|o1| - 1]
    ensures multiset(o1[..|o1| - 1]) == multiset(o2[..j] + o2[j + 1..])
  {
    var n := |o1| - 1;
    var x := o1[n];
    assert o1 == o1[..n] + [x];
    assert x in multiset(o2);
    j :| 0 <= j < |o2| && o2[j] == x;
    var p1, p2 := o1[..n], o2[..j] + o2[j + 1..];
    assert multiset(o2) == multiset(p2) + multiset{x} by {
      assert o2 == o2[..j] + [x] + o2[j + 1..];
    }
    MultisetCancel(multiset(p1), multiset(p2), x);
  }

  lemma MultisetCancel(a: multiset<string>, b: multiset<string>, x: string)
    requires a + multiset{x} == b + multiset{x}
    ensures a == b
  {
    forall k ensures a[k] == b[k] {
      assert (a + multiset{x})[k] == (b + multiset{x})[k];
    }
  }

  /** The parts of `o`, cut around its `j`-th name. */
  lemma PartsForAround(part: (string, seq<bv8>) -> string, m: map<string, seq<bv8>>, o: seq<string>, j: nat)
    requires j < |o| && forall k :: k in o ==> k in m
    ensures forall k :: k in o[..j] + o[j + 1..] ==> k in m
    ensures forall k :: k in o[..j] ==> k in m
    ensures forall k :: k in o[j + 1..] ==> k in m
    ensures PartsFor(part, m, o)
         == PartsFor(part, m, o[..j]) + [part(o[j], m[o[j]])] + PartsFor(part, m, o[j + 1..])
    ensures PartsFor(part, m, o[..j] + o[j + 1..])
         == PartsFor(part, m, o[..j]) + PartsFor(part, m, o[j + 1..])
  {
    var a, x, b := o[..j], o[j], o[j + 1..];
    assert o == a + [x] + b;
    assert forall k :: k in a + b ==> k in o;
    PartsForAppend(part, m, a, b);
    PartsForAppend(part, m, a + [x], b);
    PartsForAppend(part, m, a, [x]);
    assert PartsFor(part, m, [x]) == [part(x, m[x])];
  }

  /** Orders holding the same names give the same attachment parts, each as often. */
  lemma {:induction false} PartsForPermute(part: (string, seq<bv8>) -> string, m: map<string, seq<bv8>>,
                                           o1: seq<string>, o2: seq<string>)
    requires forall k :: k in o1 ==> k in m
    requires multiset(o1) == multiset(o2)
    ensures forall k :: k in o2 ==> k in m
    ensures multiset(PartsFor(part, m, o1)) == multiset(PartsFor(part, m, o2))
    decreases |o1|
  {
    assert forall k :: k in o2 ==> k in multiset(o2);
    if o1 == [] {
      assert |o2| == |multiset(o2)| == 0;
    } else {
      var n := |o1| - 1;
      var j := RemoveLast(o1, o2);
      var x := o1[n];
      var p1 := o1[..n];
      assert forall k :: k in p1 ==> k in o1;
      PartsForPermute(part, m, p1, o2[..j] + o2[j + 1..]);
      PartsForAround(part, m, o2, j);
      PartsForSnoc(part, m, o1, n);
      assert o1[..n + 1] == o1;
      PermuteStep(PartsFor(part, m, p1), PartsFor(part, m, o2[..j]), PartsFor(part, m, o2[j + 1..]),
                  part(x, m[x]));
    }
  }

  /** Go visits the attachment map in an unspecified order; whichever order it
      takes, the message holds the same body part first and the same attachment
      parts, each once. */
  lemma OrderIndependent(mail: Mail, o1: seq<string>, o2: seq<string>)
    requires IsEnumeration(o1, mail.attachments) && IsEnumeration(o2, mail.attachments)
    ensures Parts(mail, o1)[0] == Parts(mail, o2)[0] == BodyPart(mail)
    ensures multiset(Parts(mail, o1)) == multiset(Parts(mail, o2))
  {
    EnumerationsAgree(o1, o2, mail.attachments);
    PartsForPermute(AttachmentPart, mail.attachments, o1, o2);
  }
}

=== FILE: multipart.dfy ===
/**
 * Reading the parts of a rendered message back at its delimiter lines, as a
 * MIME reader does (section 5.1.1 of RFC 2046): a part ends at the line break
 * before the next line that starts with `--myboundary`. `buildMessage` writes the
 * body between such lines as it is, so a body line starting with the boundary
 * ends the body part early.
 */
module Multipart {
  import opened Results
  import opened Mime
  import Base64

  /** The boundary as it opens a delimiter line. */
  const Dashes: string := "--myboundary"
  /** A line break followed by the boundary: where a delimiter line starts. */
  const Marker: string := "\r\n--myboundary"

  predicate MarkerAt(t: string, k: nat)
  {
    k + |Marker| <= |t| && t[k..k + |Marker|] == Marker
  }

  predicate StartsWithBoundary(t: string)
  {
    |t| >= |Dashes| && t[..|Dashes|] == Dashes
  }

  /** No line of `t` but the first starts with the boundary. */
  predicate NoMarker(t: string)
  {
    forall k :: 0 <= k < |t| ==> !MarkerAt(t, k)
  }

  /** No line of the body starts with the boundary, which section 5.1.1 of
      RFC 2046 requires of the content of every part. */
  predicate BoundarySafe(body: string)
  {
    !StartsWithBoundary(body) && NoMarker(body)
  }

  /** The first index from `i` on where a delimiter line starts, or `|t|`. */
  function NextMarker(t: string, i: nat): (r: nat)
    requires i <= |t|
    ensures i <= r <= |t|
    ensures r < |t| ==> MarkerAt(t, r)
    ensures forall k :: i <= k < r ==> !MarkerAt(t, k)
    decreases |t| - i
  {
    if i == |t| then |t| else if MarkerAt(t, i) then i else NextMarker(t, i + 1)
  }

  /** Cuts the text after the header block into its parts: each starts with the
      delimiter line and runs up to the line break before the next line that
      starts with the boundary; the close delimiter ends the text. */
  function CutParts(t: string): (r: Option<seq<string>>)
    decreases |t|
  {
    if t == CloseDelimiter then Some([])
    else if |t| < |Delimiter| || t[..|Delimiter|] != Delimiter then None
    else
      var j := NextMarker(t, |Delimiter|);
      if j == |t| then None
      else match CutParts(t[j + 2..])
        case None => None
        case Some(ps) => Some([t[..j + 2]] + ps)
  }

  /** A part as the renderer writes it: the delimiter line, content in which no
      line starts with the boundary, and a final CRLF. */
  predicate Framed(p: string)
  {
    |p| >= |Delimiter| + 2 && p[..|Delimiter|] == Delimiter && p[|p| - 2..] == Crlf
    && NoMarker(p[|Delimiter|..|p| - 2])
  }

  lemma MarkerChars()
    ensures |Marker| == 14 && |Dashes| == 12 && |Delimiter| == 14 && |CloseDelimiter| == 14
    ensures Marker == Crlf + Dashes && Delimiter == Dashes + Crlf && Delimiter != CloseDelimiter
    ensures Marker[0] == '\r' && Dashes[0] == '-' && CloseDelimiter[..12] == Dashes
    ensures forall d :: 1 <= d < |Marker| ==> Marker[d] != '\r'
  {
  }

  // ---------------------------------------------------------------------------
  // Content in which no line starts with the boundary

  lemma NoMarkerNoCr(s: string)
    requires NoCr(s)
    ensures NoMarker(s)
  {
    MarkerChars();
    forall k | 0 <= k < |s|
      ensures !MarkerAt(s, k)
    {
    }
  }

  /** Text without CR in front of such content adds no delimiter line. */
  lemma NoMarkerAfterNoCr(a: string, b: string)
    requires NoCr(a) && NoMarker(b)
    ensures NoMarker(a + b)
  {
    MarkerChars();
    var t := a + b;
    forall k | 0 <= k < |t|
      ensures !MarkerAt(t, k)
    {
      if k >= |a| && MarkerAt(t, k) {
        assert t[k..k + |Marker|] == b[k - |a|..k - |a| + |Marker|];
        assert MarkerAt(b, k - |a|);
      }
    }
  }

  /** A line break in front of such content adds no delimiter line, unless the
      content starts with the boundary. */
  lemma NoMarkerAfterCrlf(b: string)
    requires NoMarker(b) && !StartsWithBoundary(b)
    ensures NoMarker(Crlf + b)
  {
    MarkerChars();
    var t := Crlf + b;
    forall k | 0 <= k < |t|
      ensures !MarkerAt(t, k)
    {
      if k == 0 && |b| >= |Dashes| {
        assert t[..|Marker|] == Crlf + b[..|Dashes|];
        assert (Crlf + b[..|Dashes|])[2..] == b[..|Dashes|];
        assert Marker[2..] == Dashes;
      } else if k == 1 && k + |Marker| <= |t| {
        assert t[k..k + |Marker|][0] == t[1] == '\n';
      } else if k >= 2 && MarkerAt(t, k) {
        assert t[k..k + |Marker|] == b[k - 2..k - 2 + |Marker|];
        assert MarkerAt(b, k - 2);
      }
    }
  }

  lemma NotBoundary(t: string)
    requires |t| > 0 && t[0] != '-'
    ensures !StartsWithBoundary(t)
  {
    MarkerChars();
  }

  lemma FramedOf(c: string)
    requires NoMarker(c)
    ensures Framed(Delimiter + c + Crlf)
  {
    Pieces(Delimiter, c, Crlf);
  }

  // ---------------------------------------------------------------------------
  // Cutting framed parts

  /** The delimiter line of the part after `p`, or the close delimiter, is the
      first delimiter line the reader finds after `p`'s own. */
  lemma NextMarkerAfterPart(p: string, rest: string)
    requires Framed(p) && StartsWithBoundary(rest)
    ensures NextMarker(p + rest, |Delimiter|) == |p| - 2
  {
    MarkerAtEnd(p, rest);
    forall k | |Delimiter| <= k < |p| - 2
      ensures !MarkerAt(p + rest, k)
    {
      NoMarkerInside(p, rest, k);
    }
  }

  /** The line break that ends a part and the boundary after it start a delimiter line. */
  lemma MarkerAtEnd(p: string, rest: string)
    requires |p| >= 2 && p[|p| - 2..] == Crlf && StartsWithBoundary(rest)
    ensures MarkerAt(p + rest, |p| - 2)
  {
    MarkerChars();
    var t := p + rest;
    assert t[|p| - 2..|p|] == Crlf;
    assert t[|p|..|p| + 12] == Dashes;
    assert t[|p| - 2..|p| + 12] == t[|p| - 2..|p|] + t[|p|..|p| + 12];
  }

  /** No delimiter line starts inside the content of a framed part, whatever follows it. */
  lemma NoMarkerInside(p: string, rest: string, k: nat)
    requires Framed(p) && |Delimiter| <= k < |p| - 2
    ensures !MarkerAt(p + rest, k)
  {
    MarkerChars();
    var t := p + rest;
    if k + |Marker| <= |p| - 2 {
      var c := p[|Delimiter|..|p| - 2];
      assert t[k..k + |Marker|] == p[k..k + |Marker|];
      SliceOfSlice(p, |Delimiter|, |p| - 2, k - |Delimiter|, k - |Delimiter| + |Marker|);
      assert !MarkerAt(c, k - |Delimiter|);
    } else if k + |Marker| <= |t| {
      var d := |p| - 2 - k;
      assert t[|p| - 2] == '\r';
      assert t[k..k + |Marker|][d] == t[|p| - 2];
    }
  }

  lemma SliceOfSlice(s: string, a: nat, b: nat, i: nat, j: nat)
    requires a <= b <= |s| && i <= j <= b - a
    ensures s[a..b][i..j] == s[a + i..a + j]
  {
    forall x | 0 <= x < j - i
      ensures s[a..b][i..j][x] == s[a + i..a + j][x]
    {
    }
  }

  lemma ConcatFront(ps: seq<string>)
    requires ps != []
    ensures Concat(ps) == ps[0] + Concat(ps[1..])
    ensures Concat(ps) + CloseDelimiter == ps[0] + (Concat(ps[1..]) + CloseDelimiter)
    ensures [ps[0]] + ps[1..] == ps
  {
    ConcatAppend([ps[0]], ps[1..]);
    assert [ps[0]] + ps[1..] == ps;
    assert [ps[0]][..0] == [];
  }

  lemma RestStartsWithBoundary(ps: seq<string>)
    requires ps != [] ==> |ps[0]| >= |Delimiter| && ps[0][..|Delimiter|] == Delimiter
    ensures StartsWithBoundary(Concat(ps) + CloseDelimiter)
  {
    MarkerChars();
    if ps == [] {
      assert Concat(ps) + CloseDelimiter == CloseDelimiter;
    } else {
      ConcatFront(ps);
      var t := Concat(ps) + CloseDelimiter;
      assert t[..12] == ps[0][..12];
      assert ps[0][..12] == Delimiter[..12];
    }
  }

  /** Parts in which no content line starts with the boundary are cut back into
      exactly those parts. */
  lemma {:induction false} CutFramed(ps: seq<string>)
    requires forall i :: 0 <= i < |ps| ==> Framed(ps[i])
    ensures CutParts(Concat(ps) + CloseDelimiter) == Some(ps)
    decreases |ps|
  {
    MarkerChars();
    if ps == [] {
      assert Concat(ps) + CloseDelimiter == CloseDelimiter;
    } else {
      var p, rest := ps[0], Concat(ps[1..]) + CloseDelimiter;
      ConcatFront(ps);
      RestStartsWithBoundary(ps[1..]);
      CutStep(p, rest);
      CutFramed(ps[1..]);
    }
  }

  /** A framed part followed by a delimiter line is cut off as it is. */
  lemma CutStep(p: string, rest: string)
    requires Framed(p) && StartsWithBoundary(rest)
    ensures CutParts(p + rest) == match CutParts(rest)
                                  case None => None
                                  case Some(qs) => Some([p] + qs)
  {
    MarkerChars();
    var t := p + rest;
    assert t[..|Delimiter|] == Delimiter;
    NextMarkerAfterPart(p, rest);
    assert t[..|p|] == p && t[|p|..] == rest;
  }

  /** A delimiter line inside the content of the first part ends that part early,
      so the parts do not read back. */
  lemma CutMisreads(ps: seq<string>, c: string, q: nat)
    requires ps != [] && ps[0] == Delimiter + c + Crlf && MarkerAt(c, q)
    ensures CutParts(Concat(ps) + CloseDelimiter) != Some(ps)
  {
    ConcatFront(ps);
    var p := ps[0];
    var t := p + (Concat(ps[1..]) + CloseDelimiter);
    assert Concat(ps) + CloseDelimiter == t;
    MarkerInPart(c, q, Concat(ps[1..]) + CloseDelimiter);
    if CutParts(t) == Some(ps) {
      var j := CutHead(t, ps);
      assert false;
    }
  }

  /** A delimiter line in the content is one in the part and whatever follows it. */
  lemma MarkerInPart(c: string, q: nat, rest: string)
    requires MarkerAt(c, q)
    ensures MarkerAt(Delimiter + c + Crlf + rest, |Delimiter| + q)
    ensures |Delimiter| + q + 2 < |Delimiter + c + Crlf|
  {
    MarkerChars();
    var t := Delimiter + c + Crlf + rest;
    assert t[14 + q..14 + q + 14] == c[q..q + 14];
  }

  /** The first part a cut gives runs up to the first delimiter line after the opening one. */
  lemma CutHead(t: string, ps: seq<string>) returns (j: nat)
    requires CutParts(t) == Some(ps) && ps != []
    ensures |Delimiter| <= j < |t| && j == NextMarker(t, |Delimiter|) && ps[0] == t[..j + 2]
  {
    j := NextMarker(t, |Delimiter|);
  }

  // ---------------------------------------------------------------------------
  // The parts of buildMessage

  /** The content of the body part: its header block, a blank line and the body. */
  lemma BodyContent(mail: Mail)
    ensures BodyPart(mail) == Delimiter + (Block(BodyHeader(mail)) + Crlf + mail.body) + Crlf
  {
    Regroup(Delimiter, Block(BodyHeader(mail)), Crlf, mail.body, Crlf);
  }

  /** Header lines that start with `C` (each is a `Content-` field), then a
      blank line and boundary-safe content, hold no delimiter line and do not
      start with the boundary. */
  lemma {:induction false} ContentNoMarker(lines: seq<string>, content: string)
    requires forall i :: 0 <= i < |lines| ==> IsHeaderText(lines[i]) && lines[i][0] == 'C'
    requires BoundarySafe(content)
    ensures NoMarker(Block(lines) + Crlf + content)
    ensures !StartsWithBoundary(Block(lines) + Crlf + content)
    decreases |lines|
  {
    var t := Block(lines) + Crlf + content;
    if lines == [] {
      assert t == Crlf + content;
      NoMarkerAfterCrlf(content);
      NotBoundary(t);
    } else {
      var u := Block(lines[1..]) + Crlf + content;
      ContentNoMarker(lines[1..], content);
      assert t == lines[0] + (Crlf + u);
      NoMarkerAfterCrlf(u);
      NoMarkerAfterNoCr(lines[0], Crlf + u);
      NotBoundary(t);
    }
  }

  /** A part whose content holds no delimiter line is framed. */
  lemma FramedAround(h: string, content: string)
    requires NoMarker(h + Crlf + content)
    ensures Framed(Delimiter + h + Crlf + content + Crlf)
  {
    Regroup(Delimiter, h, Crlf, content, Crlf);
    FramedOf(h + Crlf + content);
  }

  /** The body part is framed exactly when no line of the body starts with the boundary. */
  lemma BodyFramed(mail: Mail)
    ensures Framed(BodyPart(mail)) <==> BoundarySafe(mail.body)
  {
    if BoundarySafe(mail.body) {
      BodyHeaderLines(mail);
      ContentNoMarker(BodyHeader(mail), mail.body);
      FramedAround(Block(BodyHeader(mail)), mail.body);
    } else {
      var h := Block(BodyHeader(mail));
      var c := h + Crlf + mail.body;
      BodyContent(mail);
      Pieces(Delimiter, c, Crlf);
      var q := BodyMarker(h, mail.body);
      assert !NoMarker(c) by { assert q < |c| && MarkerAt(c, q); }
    }
  }

  lemma BodyHeaderLines(mail: Mail)
    ensures forall i :: 0 <= i < |BodyHeader(mail)| ==> IsHeaderText(BodyHeader(mail)[i]) && BodyHeader(mail)[i][0] == 'C'
  {
    assert IsHeaderText(HtmlType) && HtmlType[0] == 'C';
    assert IsHeaderText(PlainType) && PlainType[0] == 'C';
    assert IsHeaderText(SevenBit) && SevenBit[0] == 'C';
  }

  /** Where a body that breaks the rule puts a delimiter line in the content. */
  lemma BodyMarker(h: string, body: string) returns (q: nat)
    requires !BoundarySafe(body)
    ensures MarkerAt(h + Crlf + body, q)
  {
    MarkerChars();
    var c := h + Crlf + body;
    if StartsWithBoundary(body) {
      q := |h|;
      assert c[q..q + 14] == Crlf + body[..12];
    } else {
      var k :| 0 <= k < |body| && MarkerAt(body, k);
      q := |h| + 2 + k;
      assert c[q..q + 14] == body[k..k + 14];
    }
  }

  /** An attachment part whose file name holds no CR is framed: its header lines
      hold no CR and its payload only base64 characters. */
  lemma AttachmentFramed(filename: string, data: seq<bv8>)
    requires NoCr(filename)
    ensures Framed(AttachmentPart(filename, data))
  {
    AttachmentHeaderLines(filename);
    PayloadFree(data);
    ContentNoMarker(AttachmentHeader(filename), Base64.Encode(data));
    FramedAround(Block(AttachmentHeader(filename)), Base64.Encode(data));
  }

  lemma AttachmentHeaderLines(filename: string)
    requires NoCr(filename)
    ensures forall i :: 0 <= i < |AttachmentHeader(filename)| ==>
              IsHeaderText(AttachmentHeader(filename)[i]) && AttachmentHeader(filename)[i][0] == 'C'
  {
    AttachmentHeaderText(filename);
    HeaderLinesStart(filename);
  }

  /** Each attachment header line starts with `Content-`. */
  lemma HeaderLinesStart(filename: string)
    ensures AttachmentTypeLine(filename)[0] == 'C' && Base64Encoding[0] == 'C'
    ensures DispositionLine(filename)[0] == 'C'
  {
    FirstOf("Content-Type: ", ContentType(filename) + "; name=\"" + filename + "\"");
    FirstOf("Content-Disposition: attachment; filename=\"", filename + "\"");
  }

  lemma FirstOf(a: string, b: string)
    requires |a| > 0
    ensures (a + b)[0] == a[0]
  {
  }

  /** A base64 payload holds no CR and does not start with the boundary. */
  lemma PayloadFree(data: seq<bv8>)
    ensures NoCr(Base64.Encode(data)) && BoundarySafe(Base64.Encode(data))
  {
    var payload := Base64.Encode(data);
    Base64.EncodeCharacters(data);
    NoMarkerNoCr(payload);
    if |payload| > 0 {
      NotBoundary(payload);
    } else {
      MarkerChars();
    }
  }

  /** Every part `buildMessage` writes is framed when the body is boundary-safe
      and no attachment name holds a CR. */
  lemma PartsFramed(mail: Mail, order: seq<string>)
    requires forall k :: k in order ==> k in mail.attachments
    requires forall k :: k in order ==> NoCr(k)
    requires BoundarySafe(mail.body)
    ensures forall i :: 0 <= i < |Parts(mail, order)| ==> Framed(Parts(mail, order)[i])
  {
    BodyFramed(mail);
    AttachmentPartsFramed(mail.attachments, order);
    FramedCons(BodyPart(mail), AttachmentParts(mail.attachments, order));
  }

  lemma AttachmentPartsFramed(m: map<string, seq<bv8>>, order: seq<string>)
    requires forall k :: k in order ==> k in m
    requires forall k :: k in order ==> NoCr(k)
    ensures forall i :: 0 <= i < |AttachmentParts(m, order)| ==> Framed(AttachmentParts(m, order)[i])
  {
    var ap := AttachmentParts(m, order);
    forall i | 0 <= i < |ap|
      ensures Framed(ap[i])
    {
      assert ap[i] == AttachmentPart(order[i], m[order[i]]);
      AttachmentFramed(order[i], m[order[i]]);
    }
  }

  lemma FramedCons(p: string, ps: seq<string>)
    requires Framed(p) && forall i :: 0 <= i < |ps| ==> Framed(ps[i])
    ensures forall i :: 0 <= i < |[p] + ps| ==> Framed(([p] + ps)[i])
  {
    forall i | 0 <= i < |[p] + ps|
      ensures Framed(([p] + ps)[i])
    {
      if i > 0 {
        assert ([p] + ps)[i] == ps[i - 1];
      }
    }
  }

  /** A reader cutting the text after the header block at its delimiter lines
      gets back exactly the parts `buildMessage` joined, one body part and one
      part per attachment, exactly when no line of the body starts with the
      boundary (for attachment names without CR). */
  lemma CutRendered(mail: Mail, order: seq<string>)
    requires forall k :: k in order ==> k in mail.attachments
    requires forall k :: k in order ==> NoCr(k)
    ensures CutParts(Concat(Parts(mail, order)) + CloseDelimiter) == Some(Parts(mail, order))
            <==> BoundarySafe(mail.body)
  {
    if BoundarySafe(mail.body) {
      PartsFramed(mail, order);
      CutFramed(Parts(mail, order));
    } else {
      BodyBoundaryMisreads(mail, order);
    }
  }

  /** `buildMessage` writes a body with a line starting with the boundary as it
      is, and the body part then does not read back. */
  lemma BodyBoundaryMisreads(mail: Mail, order: seq<string>)
    requires forall k :: k in order ==> k in mail.attachments
    requires !BoundarySafe(mail.body)
    ensures CutParts(Concat(Parts(mail, order)) + CloseDelimiter) != Some(Parts(mail, order))
  {
    var h := Block(BodyHeader(mail));
    var q := BodyMarker(h, mail.body);
    BodyContent(mail);
    CutMisreads(Parts(mail, order), h + Crlf + mail.body, q);
  }

  /** The body `x`, CRLF, `--myboundary--` ends the multipart inside the body part. */
  lemma BoundaryInBodyExample(mail: Mail, order: seq<string>)
    requires forall k :: k in order ==> k in mail.attachments
    requires mail.body == "x" + Marker + "--"
    ensures CutParts(Concat(Parts(mail, order)) + CloseDelimiter) != Some(Parts(mail, order))
  {
    assert mail.body[1..15] == Marker;
    assert MarkerAt(mail.body, 1);
    BodyBoundaryMisreads(mail, order);
  }
}

=== FILE: results.dfy ===
/** Option, used for Go's optional values and `(value, error)` returns. */
module Results {
  datatype Option<+T> = None | Some(value: T)
}

=== FILE: sender.dfy ===
/**
 * The mailer itself (sender.go): `validateMail`, the ordered checks a mail must
 * pass, and `Send`, which validates, builds the message and drives one SMTP
 * session through the network.
 */
module Sender {
  import opened Results
  import opened Wire
  import opened Smtp
  import opened Mime
  import Utf8

  /** Go's `GoEasyEmail`; `NewGoEasyEmail` is its constructor. `encryption` is
      copied into the TLS record's `InsecureSkipVerify`. */
  datatype GoEasyEmail = GoEasyEmail(
    host: string,
    port: string,
    userName: string,
    password: string,
    encryption: bool)

  // ---------------------------------------------------------------------------
  // validateMail

  /** Every address in `xs` is valid. */
  predicate AllAddresses(xs: seq<string>, isEmail: string -> bool)
  {
    forall i :: 0 <= i < |xs| ==> isEmail(xs[i])
  }

  /** What a mail must satisfy to be sent: a body, a subject, a valid sender, at
      least one To recipient, and valid To, Cc and Bcc addresses. */
  predicate Acceptable(mail: Mail, isEmail: string -> bool)
  {
    && mail.body != ""
    && mail.subject != ""
    && isEmail(mail.sender)
    && |mail.to| > 0
    && AllAddresses(mail.to, isEmail)
    && AllAddresses(mail.cc, isEmail)
    && AllAddresses(mail.bcc, isEmail)
  }

  /** The error of the first check that fails, in the order the checks are made:
      body, subject, sender, To not empty, then the To, Cc and Bcc addresses. */
  function FirstFailure(mail: Mail, isEmail: string -> bool): (r: Option<MailError>)
  {
    if mail.body == "" then Some(NoBody)
    else if mail.subject == "" then Some(NoSubject)
    else if !isEmail(mail.sender) then Some(BadAddress)
    else if |mail.to| == 0 then Some(NoRecipient)
    else if !AllAddresses(mail.to, isEmail) || !AllAddresses(mail.cc, isEmail)
            || !AllAddresses(mail.bcc, isEmail) then Some(BadAddress)
    else None
  }

  /** A mail passes validation exactly when it satisfies every check. */
  lemma FirstFailureNone(mail: Mail, isEmail: string -> bool)
    ensures FirstFailure(mail, isEmail).None? <==> Acceptable(mail, isEmail)
  {
  }

  /** The checks are ordered: a missing body is reported whatever else is wrong,
      and an invalid sender is reported before a missing recipient. */
  lemma FailureOrder(mail: Mail, isEmail: string -> bool)
    ensures mail.body == "" ==> FirstFailure(mail, isEmail) == Some(NoBody)
    ensures mail.body != "" && mail.subject == "" ==> FirstFailure(mail, isEmail) == Some(NoSubject)
    ensures mail.body != "" && mail.subject != "" && !isEmail(mail.sender) && mail.to == []
            ==> FirstFailure(mail, isEmail) == Some(BadAddress)
    ensures FirstFailure(mail, isEmail) == Some(NoRecipient) ==> mail.to == []
  {
  }

  /** `validateMail`: the checks in order, with an early return on the first one
      that fails; one loop each over To, Cc and Bcc. */
  method ValidateMail(mail: Mail, isEmail: string -> bool) returns (ok: bool, err: Option<MailError>)
    ensures ok <==> Acceptable(mail, isEmail)
    ensures err == FirstFailure(mail, isEmail)
  {
    if mail.body == "" {
      return false, Some(NoBody);
    }
    if mail.subject == "" {
      return false, Some(NoSubject);
    }
    if !isEmail(mail.sender) {
      return false, Some(BadAddress);
    }
    if |mail.to| <= 0 {
      return false, Some(NoRecipient);
    }
    for i := 0 to |mail.to|
      invariant forall j :: 0 <= j < i ==> isEmail(mail.to[j])
    {
      if !isEmail(mail.to[i]) {
        return false, Some(BadAddress);
      }
    }
    for i := 0 to |mail.cc|
      invariant forall j :: 0 <= j < i ==> isEmail(mail.cc[j])
    {
      if !isEmail(mail.cc[i]) {
        return false, Some(BadAddress);
      }
    }
    for i := 0 to |mail.bcc|
      invariant forall j :: 0 <= j < i ==> isEmail(mail.bcc[j])
    {
      if !isEmail(mail.bcc[i]) {
        return false, Some(BadAddress);
      }
    }
    return true, None;
  }

  // ---------------------------------------------------------------------------
  // Send, as a specification

  /** A command whose failure ends the send: all but RCPT, the writer's Close and
      QUIT, whose errors are only logged or dropped. */
  predicate Fatal(c: Command)
  {
    !(c.RcptTo? || c.Close? || c.Quit?)
  }

  /** One RCPT command per receiver, in order. */
  function RcptAll(receivers: seq<string>): (r: seq<Command>)
    ensures |r| == |receivers|
    ensures forall i :: 0 <= i < |r| ==> r[i] == RcptTo(receivers[i])
  {
    seq(|receivers|, i requires 0 <= i < |receivers| => RcptTo(receivers[i]))
  }

  /** The SMTP client `Send` builds: `newSMTPClient(host, port)`, whose TLS record
      it then replaces. */
  function Client(cfg: GoEasyEmail): (c: SmtpClient)
  {
    NewSmtpClient(cfg.host, cfg.port, []).(tlsConfig := TlsConfig(cfg.encryption, cfg.host))
  }

  /** Every command `Send` gives, in order, when nothing fails. */
  function Script(cfg: GoEasyEmail, mail: Mail, message: string): (r: seq<Command>)
  {
    [Dial(Client(cfg).serverName, Client(cfg).tlsConfig), Greet(cfg.host),
     Auth("", cfg.userName, cfg.password, cfg.host), MailFrom(mail.sender)]
    + RcptAll(mail.to + mail.cc + mail.bcc)
    + [Data, Write(Utf8.Encode(message)), Close, Quit]
  }

  /** Gives the commands of `script` in order, starting from `log`, and stops
      after the first fatal command that fails: the final log and that error. */
  function Run(reply: (seq<Command>, Command) -> Option<string>, log: seq<Command>, script: seq<Command>)
    : (r: (seq<Command>, Option<string>))
    decreases |script|
  {
    if script == [] then (log, None)
    else
      var e := reply(log, script[0]);
      if e.Some? && Fatal(script[0]) then (log + [script[0]], e)
      else Run(reply, log + [script[0]], script[1..])
  }

  lemma RunCons(reply: (seq<Command>, Command) -> Option<string>, log: seq<Command>,
                c: Command, rest: seq<Command>)
    ensures Run(reply, log, [c] + rest)
         == if reply(log, c).Some? && Fatal(c) then (log + [c], reply(log, c))
            else Run(reply, log + [c], rest)
  {
    assert ([c] + rest)[0] == c && ([c] + rest)[1..] == rest;
  }

  /** A run gives a prefix of its script and nothing more; when it ends on an
      error, the last command given is a fatal one and the error is its reply. */
  lemma {:induction false} RunPrefix(reply: (seq<Command>, Command) -> Option<string>,
                                     log: seq<Command>, script: seq<Command>)
    ensures var (final, e) := Run(reply, log, script);
            && |log| <= |final| <= |log| + |script|
            && final == log + script[..|final| - |log|]
    ensures var (final, e) := Run(reply, log, script);
            e.Some? ==> |final| > |log| && Fatal(final[|final| - 1])
                        && reply(final[..|final| - 1], final[|final| - 1]) == e
    decreases |script|
  {
    if script != [] {
      var c := script[0];
      if !(reply(log, c).Some? && Fatal(c)) {
        RunPrefix(reply, log + [c], script[1..]);
        var (final, e) := Run(reply, log + [c], script[1..]);
        var k := |final| - |log| - 1;
        assert script[..k + 1] == [c] + script[1..][..k];
      } else {
        assert (log + [c])[..|log|] == log;
      }
    }
  }

  /** A run ends without error exactly when every fatal command of the script
      is accepted, refused RCPT and Close commands and QUIT notwithstanding;
      the log then holds the whole script. */
  lemma {:induction false} RunSucceeds(reply: (seq<Command>, Command) -> Option<string>,
                                       log: seq<Command>, script: seq<Command>)
    ensures Run(reply, log, script).1.None?
        <==> forall i :: 0 <= i < |script| && Fatal(script[i]) ==> reply(log + script[..i], script[i]).None?
    ensures Run(reply, log, script).1.None? ==> Run(reply, log, script).0 == log + script
    decreases |script|
  {
    if script != [] {
      var c, rest := script[0], script[1..];
      RunSucceeds(reply, log + [c], rest);
      forall i | 0 <= i < |rest|
        ensures script[i + 1] == rest[i] && log + script[..i + 1] == (log + [c]) + rest[..i]
      {
        assert script[..i + 1] == [c] + rest[..i];
      }
      assert log + script[..0] == log;
      if Run(reply, log, script).1.None? {
        assert !(reply(log, c).Some? && Fatal(c));
        assert log + [c] + rest == log + script;
      }
    }
  }

  /** What `Send` asks of the server: the dial goes to `host:port` with the
      configured TLS record, AUTH carries the credentials, MAIL the sender, one
      RCPT goes to each To, Cc and Bcc address in that order, and the bytes
      written after DATA decode back to the message. */
  lemma ScriptShape(cfg: GoEasyEmail, mail: Mail, message: string)
    ensures var script := Script(cfg, mail, message);
            var receivers := mail.to + mail.cc + mail.bcc;
            && |script| == 8 + |mail.to| + |mail.cc| + |mail.bcc|
            && script[0].Dial? && script[0].config == TlsConfig(cfg.encryption, cfg.host)
            && (GuardError(Client(cfg)).None? ==> HostPort(script[0].addr) == (cfg.host, cfg.port))
            && script[1] == Greet(cfg.host)
            && script[2] == Auth("", cfg.userName, cfg.password, cfg.host)
            && script[3] == MailFrom(mail.sender)
            && (forall i :: 0 <= i < |receivers| ==> script[4 + i] == RcptTo(receivers[i]))
            && script[|script| - 4] == Data
            && script[|script| - 3].Write? && Utf8.Decode(script[|script| - 3].payload) == Some(message)
            && script[|script| - 2] == Close
            && script[|script| - 1] == Quit
  {
    var receivers := mail.to + mail.cc + mail.bcc;
    var head := [Dial(Client(cfg).serverName, Client(cfg).tlsConfig), Greet(cfg.host),
                 Auth("", cfg.userName, cfg.password, cfg.host), MailFrom(mail.sender)];
    var tail := [Data, Write(Utf8.Encode(message)), Close, Quit];
    var rcpts := RcptAll(receivers);
    assert Script(cfg, mail, message) == head + rcpts + tail;
    ScriptPieces(head, rcpts, tail);
    if GuardError(Client(cfg)).None? {
      GuardedAddress(cfg.host, cfg.port, []);
    }
    Utf8.DecodeEncode(message);
  }

  /** Indexing into a script made of four commands, a middle part and four more. */
  lemma ScriptPieces(head: seq<Command>, middle: seq<Command>, tail: seq<Command>)
    requires |head| == 4 && |tail| == 4
    ensures var s := head + middle + tail;
            && |s| == 8 + |middle|
            && s[0] == head[0] && s[1] == head[1] && s[2] == head[2] && s[3] == head[3]
            && (forall i :: 0 <= i < |middle| ==> s[4 + i] == middle[i])
            && s[|s| - 4] == tail[0] && s[|s| - 3] == tail[1]
            && s[|s| - 2] == tail[2] && s[|s| - 1] == tail[3]
  {
  }

  /** A server that refuses every recipient and accepts everything else. */
  function RefuseRecipients(log: seq<Command>, c: Command): (r: Option<string>)
    ensures r.Some? <==> c.RcptTo?
  {
    if c.RcptTo? then Some("550 mailbox unavailable") else None
  }

  /** Refused recipients do not stop a send: against a server that refuses
      every RCPT and accepts the rest, the whole script is given and the send
      ends without error. */
  lemma RefusedRecipientsIgnored(cfg: GoEasyEmail, mail: Mail, message: string, log: seq<Command>)
    ensures Run(RefuseRecipients, log, Script(cfg, mail, message))
         == (log + Script(cfg, mail, message), None)
  {
    var script := Script(cfg, mail, message);
    forall i | 0 <= i < |script| && Fatal(script[i])
      ensures RefuseRecipients(log + script[..i], script[i]).None?
    {
    }
    RunSucceeds(RefuseRecipients, log, script);
  }

  /** The session after the connection, when nothing fails. */
  function Session(auth: Command, from: string, receivers: seq<string>, payload: seq<bv8>): (r: seq<Command>)
  {
    [auth] + ([MailFrom(from)] + (RcptAll(receivers) + [Data, Write(payload), Close, Quit]))
  }

  /** The error `Send` hands back for the error a run stopped on. */
  function AsMailError(e: Option<string>): (r: Option<MailError>)
    ensures r.None? <==> e.None?
  {
    if e.Some? then Some(Remote(e.value)) else None
  }

  // ---------------------------------------------------------------------------
  // Send

  /** The RCPT loop of `Send`: one RCPT per receiver, in order; a refused
      recipient is only logged, so every receiver is tried and the run of what
      follows is the run of the whole. */
  method Recipients(net: Network, receivers: seq<string>, ghost rest: seq<Command>)
    modifies net
    ensures net.log == old(net.log) + RcptAll(receivers)
    ensures Run(net.reply, net.log, rest) == Run(net.reply, old(net.log), RcptAll(receivers) + rest)
  {
    for i := 0 to |receivers|
      invariant net.log == old(net.log) + RcptAll(receivers)[..i]
      invariant Run(net.reply, net.log, RcptAll(receivers)[i..] + rest)
             == Run(net.reply, old(net.log), RcptAll(receivers) + rest)
    {
      assert RcptAll(receivers)[i..] + rest == [RcptTo(receivers[i])] + (RcptAll(receivers)[i + 1..] + rest);
      RunCons(net.reply, net.log, RcptTo(receivers[i]), RcptAll(receivers)[i + 1..] + rest);
      var e := net.Issue(RcptTo(receivers[i]));
      assert RcptAll(receivers)[..i + 1] == RcptAll(receivers)[..i] + [RcptTo(receivers[i])];
    }
    assert RcptAll(receivers)[|receivers|..] + rest == rest;
    assert RcptAll(receivers)[..|receivers|] == RcptAll(receivers);
  }

  /** The end of `Send`: DATA and the write of the message, whose failures end
      the send; the writer's Close, whose failure is only logged; QUIT, whose
      result is dropped. */
  method Finish(net: Network, payload: seq<bv8>) returns (err: Option<MailError>)
    modifies net
    ensures var (log, e) := Run(net.reply, old(net.log), [Data, Write(payload), Close, Quit]);
            net.log == log && err == AsMailError(e)
  {
    ghost var tail := [Data, Write(payload), Close, Quit];
    RunCons(net.reply, net.log, Data, tail[1..]);
    var e := net.Issue(Data);
    if e.Some? {
      return Some(Remote(e.value));
    }
    RunCons(net.reply, net.log, Write(payload), tail[2..]);
    e := net.Issue(Write(payload));
    if e.Some? {
      return Some(Remote(e.value));
    }
    RunCons(net.reply, net.log, Close, tail[3..]);
    e := net.Issue(Close);
    RunCons(net.reply, net.log, Quit, []);
    e := net.Issue(Quit);
    return None;
  }

  /** The part of `Send` after `getClient`: AUTH and MAIL, whose failures end the
      send, then the recipients and the end of the session. */
  method Deliver(net: Network, auth: Command, from: string, receivers: seq<string>, payload: seq<bv8>)
    returns (err: Option<MailError>)
    requires Fatal(auth)
    modifies net
    ensures var (log, e) := Run(net.reply, old(net.log), Session(auth, from, receivers, payload));
            net.log == log && err == AsMailError(e)
  {
    ghost var tail := [Data, Write(payload), Close, Quit];
    RunCons(net.reply, net.log, auth, [MailFrom(from)] + (RcptAll(receivers) + tail));
    var e := net.Issue(auth);
    if e.Some? {
      return Some(Remote(e.value));
    }
    RunCons(net.reply, net.log, MailFrom(from), RcptAll(receivers) + tail);
    e := net.Issue(MailFrom(from));
    if e.Some? {
      return Some(Remote(e.value));
    }
    Recipients(net, receivers, tail);
    err := Finish(net, payload);
  }

  /** `Send`: validates the mail, builds the message, reaches the server through
      `getClient`, then runs the session. It hands back the mail it was given.
      `order` is the order in which the attachment map is visited. */
  method Send(cfg: GoEasyEmail, mail: Mail, order: seq<string>, isEmail: string -> bool, net: Network)
    returns (out: Mail, err: Option<MailError>)
    requires IsEnumeration(order, mail.attachments)
    modifies net
    ensures out == mail
    ensures FirstFailure(mail, isEmail).Some? ==>
              err == FirstFailure(mail, isEmail) && net.log == old(net.log)
    ensures FirstFailure(mail, isEmail).None? && GuardError(Client(cfg)).Some? ==>
              err == GuardError(Client(cfg)) && net.log == old(net.log)
    ensures FirstFailure(mail, isEmail).None? && GuardError(Client(cfg)).None? ==>
              var (log, e) := Run(net.reply, old(net.log), Script(cfg, mail, Rendered(mail, order)));
              net.log == log && err == AsMailError(e)
  {
    out := mail;
    var valid, verr := ValidateMail(mail, isEmail);
    if verr.Some? {
      return out, verr;
    }

    var messageBody := BuildMessage(mail, order);

    var app := NewSmtpClient(cfg.host, cfg.port, []);
    app := app.(tlsConfig := TlsConfig(cfg.encryption, cfg.host));
    assert app == Client(cfg);

    ScriptRun(net.reply, net.log, cfg, mail, messageBody);
    err := GetClient(app, net);
    if err.Some? {
      return out, err;
    }

    var auth := Auth("", cfg.userName, cfg.password, cfg.host);
    var receivers := mail.to + mail.cc;
    receivers := receivers + mail.bcc;
    var payload := Utf8.Encode(messageBody);
    err := Deliver(net, auth, mail.sender, receivers, payload);
    return out, err;
  }

  /** The run of the whole script: the dial and the greeting, whose failures end
      it, then the session. */
  lemma ScriptRun(reply: (seq<Command>, Command) -> Option<string>, log: seq<Command>,
                  cfg: GoEasyEmail, mail: Mail, message: string)
    ensures var dial := Dial(Client(cfg).serverName, Client(cfg).tlsConfig);
            var greeted := log + [dial, Greet(cfg.host)];
            Run(reply, log, Script(cfg, mail, message))
              == if reply(log, dial).Some? then (log + [dial], reply(log, dial))
                 else if reply(log + [dial], Greet(cfg.host)).Some? then (greeted, reply(log + [dial], Greet(cfg.host)))
                 else Run(reply, greeted, Session(Auth("", cfg.userName, cfg.password, cfg.host), mail.sender,
                                                  mail.to + mail.cc + mail.bcc, Utf8.Encode(message)))
  {
    var dial := Dial(Client(cfg).serverName, Client(cfg).tlsConfig);
    var session := Session(Auth("", cfg.userName, cfg.password, cfg.host), mail.sender,
                           mail.to + mail.cc + mail.bcc, Utf8.Encode(message));
    assert Script(cfg, mail, message) == [dial] + ([Greet(cfg.host)] + session);
    RunCons(reply, log, dial, [Greet(cfg.host)] + session);
    RunCons(reply, log + [dial], Greet(cfg.host), session);
    assert log + [dial] + [Greet(cfg.host)] == log + [dial, Greet(cfg.host)];
  }
}

=== FILE: smtp.dfy ===
/**
 * The connection side of the mailer (smtp.go): the client record built from a
 * host and a port, the host and port guards, and the dial that follows them.
 */
module Smtp {
  import opened Results
  import opened GoText
  import opened Wire

  /** Go's `SMTPClientImpl`. */
  datatype SmtpClient = SmtpClient(
    serverName: string,
    tlsConfig: TlsConfig,
    debug: bool,
    host: string,
    port: string)

  /** The host and the port of a dial address: the text around its last ':'. */
  function HostPort(addr: string): (r: (string, string))
  {
    var parts := Split(addr, ':');
    (Join(parts[..|parts| - 1], ":"), parts[|parts| - 1])
  }

  /** `newSMTPClient(host, port, tlsConfig...)`: `tlsConfigs` holds the optional
      variadic arguments. The dial address names the host and the port it was built
      from, and the TLS record verifies certificates for `host` unless a config is
      supplied, in which case the first one is used. */
  function NewSmtpClient(host: string, port: string, tlsConfigs: seq<TlsConfig>): (c: SmtpClient)
    ensures c.host == host && c.port == port && !c.debug
    ensures c.serverName == host + ":" + port
    ensures ':' !in port ==> HostPort(c.serverName) == (host, port)
    ensures |tlsConfigs| == 0 ==> !c.tlsConfig.insecureSkipVerify && c.tlsConfig.serverName == host
    ensures |tlsConfigs| > 0 ==> c.tlsConfig == tlsConfigs[0]
  {
    var c := SmtpClient(host + ":" + port, TlsConfig(false, host), false, host, port);
    var c := if |tlsConfigs| > 0 then c.(tlsConfig := tlsConfigs[0]) else c;
    AddressSplits(host, port);
    c
  }

  lemma AddressSplits(host: string, port: string)
    ensures ':' !in port ==> HostPort(host + ":" + port) == (host, port)
  {
    if ':' in port { return; }
    SplitAround(host, ':', port);
    SplitAfterPiece(port, ':', "");
    assert host + ":" + port == host + [':'] + port;
    var parts := Split(host + ":" + port, ':');
    assert parts[..|parts| - 1] == Split(host, ':');
    JoinSplit(host, ':');
  }

  // ---------------------------------------------------------------------------
  // isDomain: ^(?:[a-z0-9](?:[a-z0-9-]{0,61}[a-z0-9])?\.)+[a-z]{2,}$

  predicate IsAlnum(c: char)
  {
    'a' <= c <= 'z' || '0' <= c <= '9'
  }

  predicate IsLabelChar(c: char)
  {
    IsAlnum(c) || c == '-'
  }

  /** `[a-z0-9](?:[a-z0-9-]{0,61}[a-z0-9])?`: 1 to 63 characters from a-z, 0-9
      and '-', neither first nor last being '-'. */
  predicate IsLabel(l: string)
  {
    1 <= |l| <= 63 && IsAlnum(l[0]) && IsAlnum(l[|l| - 1])
    && forall i :: 0 <= i < |l| ==> IsLabelChar(l[i])
  }

  /** `[a-z]{2,}`. */
  predicate IsTld(t: string)
  {
    |t| >= 2 && forall i :: 0 <= i < |t| ==> 'a' <= t[i] <= 'z'
  }

  /** `isDomain`, as a recogniser over the '.'-separated pieces of the host: all but
      the last are labels and the last is a top-level name. */
  predicate IsDomain(s: string)
  {
    var parts := Split(s, '.');
    |parts| >= 2 && IsTld(parts[|parts| - 1])
    && forall i :: 0 <= i < |parts| - 1 ==> IsLabel(parts[i])
  }

  /** The labels of the pattern, each followed by its '.': `(?:label\.)+`. */
  function Dotted(labels: seq<string>): (r: string)
  {
    if labels == [] then "" else labels[0] + "." + Dotted(labels[1..])
  }

  /** The regular expression read as a shape: one or more labels, each followed by
      '.', then a top-level name. */
  predicate DomainShape(s: string, labels: seq<string>, tld: string)
  {
    |labels| >= 1 && (forall i :: 0 <= i < |labels| ==> IsLabel(labels[i]))
    && IsTld(tld) && s == Dotted(labels) + tld
  }

  lemma {:induction false} DottedJoin(labels: seq<string>, tld: string)
    ensures Dotted(labels) + tld == Join(labels + [tld], ".")
  {
    if labels != [] {
      DottedJoin(labels[1..], tld);
      assert (labels + [tld])[1..] == labels[1..] + [tld];
    }
  }

  /** Every host the recogniser accepts has the shape of the pattern ... */
  lemma IsDomainSound(s: string)
    requires IsDomain(s)
    ensures var parts := Split(s, '.');
            DomainShape(s, parts[..|parts| - 1], parts[|parts| - 1])
  {
    var parts := Split(s, '.');
    JoinSplit(s, '.');
    DottedJoin(parts[..|parts| - 1], parts[|parts| - 1]);
    assert parts[..|parts| - 1] + [parts[|parts| - 1]] == parts;
  }

  /** ... and every host of that shape is accepted. */
  lemma IsDomainComplete(s: string, labels: seq<string>, tld: string)
    requires DomainShape(s, labels, tld)
    ensures IsDomain(s)
  {
    var xs := labels + [tld];
    forall i | 0 <= i < |xs| ensures '.' !in xs[i] {
      if i < |labels| {
        assert forall j :: 0 <= j < |labels[i]| ==> IsLabelChar(labels[i][j]);
      }
    }
    DottedJoin(labels, tld);
    SplitJoin(xs, '.');
  }

  predicate IsHostChar(c: char)
  {
    IsLabelChar(c) || c == '.'
  }

  /** What every accepted host looks like: only a-z, 0-9, '-' and '.', at least one
      '.', a letter or digit first and a letter last. So "-bad.com", "not a domain",
      "localhost" and anything with an upper-case letter are rejected. */
  lemma DomainCharacters(s: string)
    requires IsDomain(s)
    ensures forall k :: 0 <= k < |s| ==> IsHostChar(s[k])
    ensures '.' in s && IsAlnum(s[0]) && 'a' <= s[|s| - 1] <= 'z'
  {
    DomainHostChars(s);
    DomainEnds(s);
  }

  lemma DomainHostChars(s: string)
    requires IsDomain(s)
    ensures forall k :: 0 <= k < |s| ==> IsHostChar(s[k])
  {
    var parts := Split(s, '.');
    JoinSplit(s, '.');
    forall i, j | 0 <= i < |parts| && 0 <= j < |parts[i]| ensures IsHostChar(parts[i][j]) {
      if i < |parts| - 1 {
        assert IsLabel(parts[i]);
      }
    }
    JoinCharacters(parts, ".", c => IsHostChar(c));
  }

  lemma DomainEnds(s: string)
    requires IsDomain(s)
    ensures '.' in s && IsAlnum(s[0]) && 'a' <= s[|s| - 1] <= 'z'
  {
    var parts := Split(s, '.');
    var tld := parts[|parts| - 1];
    IsDomainSound(s);
    var labels := parts[..|parts| - 1];
    assert labels[0] == parts[0] && IsLabel(labels[0]);
    DottedFront(labels);
    assert s == Dotted(labels) + tld;
    assert s[|s| - 1] == tld[|tld| - 1];
  }

  /** The pattern's first label and its '.' open the dotted labels. */
  lemma DottedFront(labels: seq<string>)
    requires |labels| >= 1
    ensures Dotted(labels) == labels[0] + "." + Dotted(labels[1..])
  {
  }

  /** The hosts named as examples of the rule. */
  lemma AcceptedDomainExample()
    ensures IsDomain("smtp.example.com")
  {
    var labels := ["smtp", "example"];
    assert IsLabel("smtp") && IsLabel("example") && IsTld("com");
    assert Dotted(labels) + "com" == "smtp.example.com";
    IsDomainComplete("smtp.example.com", labels, "com");
  }

  lemma RejectedDomainExamples()
    ensures !IsDomain("-bad.com") && !IsDomain("not a domain")
    ensures !IsDomain("localhost") && !IsDomain("SMTP.example.com")
  {
    NotDomainStart("-bad.com");
    SpaceInNotADomain();
    NotDomainChar("not a domain", 3);
    LocalhostHasNoDot();
    NotDomainDotless("localhost");
    NotDomainChar("SMTP.example.com", 0);
  }

  /** A host with a character outside a-z, 0-9, '-' and '.' is rejected. */
  lemma NotDomainChar(s: string, k: nat)
    requires k < |s| && !IsHostChar(s[k])
    ensures !IsDomain(s)
  {
    if IsDomain(s) {
      DomainCharacters(s);
    }
  }

  /** A host that starts with neither a letter nor a digit is rejected. */
  lemma NotDomainStart(s: string)
    requires |s| > 0 && !IsAlnum(s[0])
    ensures !IsDomain(s)
  {
    if IsDomain(s) {
      DomainCharacters(s);
    }
  }

  lemma SpaceInNotADomain()
    ensures !IsHostChar("not a domain"[3])
  {
  }

  lemma LocalhostHasNoDot()
    ensures '.' !in "localhost"
  {
  }

  /** A host without a '.' is rejected. */
  lemma NotDomainDotless(s: string)
    requires '.' !in s
    ensures !IsDomain(s)
  {
    if IsDomain(s) {
      DomainCharacters(s);
    }
  }

  // ---------------------------------------------------------------------------
  // The port rule of getClient

  /** `strconv.Atoi(port)` succeeds with a value greater than zero. */
  predicate IsPort(port: string)
  {
    var n := Atoi(port);
    n.Some? && n.value > 0
  }

  /** A valid port is an optional '+' and decimal digits: no ':' can occur in it,
      and every positive 64-bit number written out in decimal is one. */
  lemma PortCharacters(port: string)
    requires IsPort(port)
    ensures ':' !in port
    ensures port[0] == '+' || IsDigit(port[0])
    ensures forall i :: 1 <= i < |port| ==> IsDigit(port[i])
  {
    var digits := if port[0] == '+' || port[0] == '-' then port[1..] else port;
    assert AllDigits(digits);
  }

  lemma PortOfItoa(n: int)
    requires 0 < n <= MaxInt64
    ensures IsPort(Itoa(n))
  {
    AtoiItoa(n);
  }

  /** The ports named as examples of the rule. */
  lemma PortExamples()
    ensures IsPort("587")
    ensures !IsPort("0") && !IsPort("-1") && !IsPort("abc")
  {
    assert "587"[..2] == "58" && "58"[..1] == "5";
    assert DigitsValue("587") == 587;
    assert !IsDigit("abc"[0]);
  }

  // ---------------------------------------------------------------------------
  // getClient

  /** The guards of `getClient`, in order: the host first, then the port. */
  function GuardError(c: SmtpClient): (r: Option<MailError>)
  {
    if !IsDomain(c.host) then Some(BadHost(c.host))
    else if !IsPort(c.port) then Some(BadPort(c.port))
    else None
  }

  /** Once the guards pass, the dial address splits back into the host and the
      port the client was built from. */
  lemma GuardedAddress(host: string, port: string, tlsConfigs: seq<TlsConfig>)
    requires GuardError(NewSmtpClient(host, port, tlsConfigs)).None?
    ensures HostPort(NewSmtpClient(host, port, tlsConfigs).serverName) == (host, port)
  {
    PortCharacters(port);
  }

  /** `getClient`: the guards, then `tls.Dial` and `smtp.NewClient`, whose errors
      are passed on unchanged. Nothing reaches the network unless both guards pass. */
  method GetClient(c: SmtpClient, net: Network) returns (err: Option<MailError>)
    modifies net
    ensures GuardError(c).Some? ==> err == GuardError(c) && net.log == old(net.log)
    ensures GuardError(c).None? ==>
      var dial := Dial(c.serverName, c.tlsConfig);
      var dialed := net.reply(old(net.log), dial);
      var greeted := net.reply(old(net.log) + [dial], Greet(c.host));
      if dialed.Some? then net.log == old(net.log) + [dial] && err == Some(Remote(dialed.value))
      else net.log == old(net.log) + [dial, Greet(c.host)]
           && err == if greeted.Some? then Some(Remote(greeted.value)) else None
  {
    if !IsDomain(c.host) {
      return Some(BadHost(c.host));
    }
    var portNumber := Atoi(c.port);
    if portNumber.None? || portNumber.value <= 0 {
      return Some(BadPort(c.port));
    }
    var e := net.Issue(Dial(c.serverName, c.tlsConfig));
    if e.Some? {
      return Some(Remote(e.value));
    }
    e := net.Issue(Greet(c.host));
    if e.Some? {
      return Some(Remote(e.value));
    }
    return None;
  }
}

=== FILE: text.dfy ===
/**
 * The pieces of Go's standard library that the mailer's own code calls on
 * strings: `strings.Join`, `strings.ToLower`, `filepath.Ext` and `strconv.Atoi`,
 * each with a partner (`Split`, `Itoa`) or a characterising contract.
 */
module GoText {
  import opened Results

  // ---------------------------------------------------------------------------
  // strings.Join and its inverse

  /** Go's `strings.Join`: the elements with `sep` between neighbours. */
  function Join(xs: seq<string>, sep: string): (r: string)
  {
    if |xs| == 0 then ""
    else if |xs| == 1 then xs[0]
    else xs[0] + sep + Join(xs[1..], sep)
  }

  /** The pieces of `s` between occurrences of `c` (Go's `strings.Split` with a
      one-character separator): never empty, and no piece contains `c`. */
  function Split(s: string, c: char): (r: seq<string>)
    ensures |r| >= 1
    ensures forall i :: 0 <= i < |r| ==> c !in r[i]
    decreases |s|
  {
    if |s| == 0 then [""]
    else if s[0] == c then [""] + Split(s[1..], c)
    else
      var rest := Split(s[1..], c);
      [[s[0]] + rest[0]] + rest[1..]
  }

  /** A piece without the separator splits off cleanly. */
  lemma {:induction false} SplitAfterPiece(x: string, c: char, t: string)
    requires c !in x
    ensures Split(x + [c] + t, c) == [x] + Split(t, c)
    ensures Split(x, c) == [x]
    decreases |x|
  {
    if x != "" {
      SplitAfterPiece(x[1..], c, t);
      assert (x + [c] + t)[1..] == x[1..] + [c] + t;
      assert x == [x[0]] + x[1..];
    } else {
      assert ([c] + t)[1..] == t;
    }
  }

  /** Splitting at a separator occurrence splits the two sides independently. */
  lemma {:induction false} SplitAround(a: string, c: char, b: string)
    ensures Split(a + [c] + b, c) == Split(a, c) + Split(b, c)
    decreases |a|
  {
    if a == "" {
      assert ([c] + b)[1..] == b;
    } else {
      SplitAround(a[1..], c, b);
      var s := a + [c] + b;
      assert s[0] == a[0] && s[1..] == a[1..] + [c] + b;
      if a[0] != c {
        ExtendFirst([a[0]], Split(a[1..], c), Split(b, c));
      }
    }
  }

  /** Extending the first piece of `r + q` extends the first piece of `r`. */
  lemma ExtendFirst(x: string, r: seq<string>, q: seq<string>)
    requires |r| >= 1
    ensures [x + (r + q)[0]] + (r + q)[1..] == ([x + r[0]] + r[1..]) + q
  {
    assert (r + q)[1..] == r[1..] + q;
  }

  /** Every character of a join comes from an element or from the separator. */
  lemma {:induction false} JoinCharacters(xs: seq<string>, sep: string, allowed: char -> bool)
    requires forall i, j :: 0 <= i < |xs| && 0 <= j < |xs[i]| ==> allowed(xs[i][j])
    requires forall j :: 0 <= j < |sep| ==> allowed(sep[j])
    ensures forall k :: 0 <= k < |Join(xs, sep)| ==> allowed(Join(xs, sep)[k])
  {
    if |xs| > 1 {
      JoinCharacters(xs[1..], sep, allowed);
      var r := Join(xs[1..], sep);
      assert Join(xs, sep) == xs[0] + sep + r;
      forall k | 0 <= k < |Join(xs, sep)| ensures allowed(Join(xs, sep)[k]) {
        if k < |xs[0]| {
          assert Join(xs, sep)[k] == xs[0][k];
        } else if k < |xs[0]| + |sep| {
          assert Join(xs, sep)[k] == sep[k - |xs[0]|];
        } else {
          assert Join(xs, sep)[k] == r[k - |xs[0]| - |sep|];
        }
      }
    }
  }

  /** Splitting a join at a separator that no element contains gives the elements back. */
  lemma {:induction false} SplitJoin(xs: seq<string>, c: char)
    requires |xs| >= 1
    requires forall i :: 0 <= i < |xs| ==> c !in xs[i]
    ensures Split(Join(xs, [c]), c) == xs
  {
    if |xs| == 1 {
      SplitAfterPiece(xs[0], c, "");
    } else {
      SplitJoin(xs[1..], c);
      SplitAfterPiece(xs[0], c, Join(xs[1..], [c]));
      assert xs == [xs[0]] + xs[1..];
    }
  }

  /** Joining the pieces with the separator gives the string back. */
  lemma {:induction false} JoinSplit(s: string, c: char)
    ensures Join(Split(s, c), [c]) == s
    decreases |s|
  {
    if s != "" {
      JoinSplit(s[1..], c);
      var rest := Split(s[1..], c);
      if s[0] != c && |rest| > 1 {
        assert Join(rest, [c]) == rest[0] + [c] + Join(rest[1..], [c]);
        assert ([[s[0]] + rest[0]] + rest[1..])[1..] == rest[1..];
      }
      assert s == [s[0]] + s[1..];
    }
  }

  // ---------------------------------------------------------------------------
  // strings.ToLower

  /** Go's `unicode.ToLower` on the runes whose lower case is an ASCII letter:
      A-Z, U+0130 (capital I with dot above, lowered to 'i') and U+212A (Kelvin
      sign, lowered to 'k'). Every other rune is left as it is. */
  function LowerRune(c: char): (r: char)
    ensures 'a' <= r <= 'z' <==> ('a' <= c <= 'z' || 'A' <= c <= 'Z' || c == 'İ' || c == 'K')
    ensures (r == '.') == (c == '.') && (r == '/') == (c == '/')
  {
    if 'A' <= c <= 'Z' then (c as int + 32) as char
    else if c == 'İ' then 'i'
    else if c == 'K' then 'k'
    else c
  }

  /** Go's `strings.ToLower`, rune by rune. */
  function ToLower(s: string): (r: string)
    ensures |r| == |s|
  {
    seq(|s|, i requires 0 <= i < |s| => LowerRune(s[i]))
  }

  // ---------------------------------------------------------------------------
  // filepath.Ext

  /** Go's `filepath.Ext` on a '/'-separated path: the suffix from the last '.'
      of the final path element, or "" when that element has no '.'. */
  function Ext(path: string): (r: string)
    ensures r == "" || (r[0] == '.' && |r| <= |path| && r == path[|path| - |r|..])
    ensures forall m :: |path| - |r| < m < |path| ==> path[m] != '.' && path[m] != '/'
    ensures r == "" <==> NoDotInLastElement(path)
  {
    var k := ScanStop(path, |path|);
    if k < 0 then ""
    else
      LastSlashBeforeDot(path, |path|, k);
      path[k..]
  }

  /** The index of the last '/' before index `i`, or -1 when there is none. */
  function LastSlashBefore(path: string, i: nat): (r: int)
    requires i <= |path|
    ensures -1 <= r < i
    ensures r >= 0 ==> path[r] == '/'
    ensures forall m :: r < m < i ==> path[m] != '/'
    decreases i
  {
    if i == 0 then -1
    else if path[i - 1] == '/' then i - 1
    else LastSlashBefore(path, i - 1)
  }

  /** The final element of `path`, after its last '/', holds no '.'. */
  predicate NoDotInLastElement(path: string)
  {
    forall j :: LastSlashBefore(path, |path|) < j < |path| ==> path[j] != '.'
  }

  /** `filepath.Ext`'s backward scan, started just before index `i`: the index of
      the '.' it finds, or -1 when it reaches a '/' or the start first. */
  function ScanStop(path: string, i: nat): (r: int)
    requires i <= |path|
    ensures -1 <= r < i
    ensures r >= 0 ==> path[r] == '.' && forall m :: r < m < i ==> path[m] != '.' && path[m] != '/'
    ensures r < 0 ==> forall j :: LastSlashBefore(path, i) < j < i ==> path[j] != '.'
    decreases i
  {
    if i == 0 || path[i - 1] == '/' then -1
    else if path[i - 1] == '.' then i - 1
    else ScanStop(path, i - 1)
  }

  /** A '.' with no '/' after it lies after the last '/'. */
  lemma LastSlashBeforeDot(path: string, i: nat, k: nat)
    requires k < i <= |path| && path[k] == '.'
    requires forall m :: k < m < i ==> path[m] != '/'
    ensures LastSlashBefore(path, i) < k
  {
  }

  // ---------------------------------------------------------------------------
  // strconv.Atoi and strconv.Itoa

  const MinInt64: int := -0x8000_0000_0000_0000
  const MaxInt64: int := 0x7FFF_FFFF_FFFF_FFFF

  predicate IsDigit(c: char)
  {
    '0' <= c <= '9'
  }

  predicate AllDigits(s: string)
  {
    forall i :: 0 <= i < |s| ==> IsDigit(s[i])
  }

  /** The value of a string of decimal digits. */
  function DigitsValue(s: string): (r: nat)
    requires AllDigits(s)
  {
    if s == "" then 0 else DigitsValue(s[..|s| - 1]) * 10 + (s[|s| - 1] as int - '0' as int)
  }

  /** Go's `strconv.Atoi` on a 64-bit platform: an optional sign, then one or more
      decimal digits, and a value that fits in 64 bits; otherwise an error. */
  function Atoi(s: string): (r: Option<int>)
    ensures r.Some? ==> MinInt64 <= r.value <= MaxInt64
    ensures r.Some? ==> |s| > 0 && (IsDigit(s[0]) || s[0] == '+' || s[0] == '-')
  {
    var signed := |s| > 0 && (s[0] == '+' || s[0] == '-');
    var digits := if signed then s[1..] else s;
    if |digits| == 0 || !AllDigits(digits) then None
    else
      var v: int := if signed && s[0] == '-' then 0 - DigitsValue(digits) as int else DigitsValue(digits);
      if MinInt64 <= v <= MaxInt64 then Some(v) else None
  }

  /** The decimal digits of `n`, without leading zeros. */
  function Digits(n: nat): (r: string)
    ensures |r| >= 1 && AllDigits(r)
    ensures DigitsValue(r) == n
  {
    if n < 10 then [('0' as int + n) as char]
    else
      var r := Digits(n / 10) + [('0' as int + n % 10) as char];
      assert r[..|r| - 1] == Digits(n / 10);
      r
  }

  /** Go's `strconv.Itoa`. */
  function Itoa(n: int): (r: string)
  {
    if n < 0 then "-" + Digits(-n) else Digits(n)
  }

  /** Atoi reads back what Itoa writes, for every 64-bit value. */
  lemma AtoiItoa(n: int)
    requires MinInt64 <= n <= MaxInt64
    ensures Atoi(Itoa(n)) == Some(n)
  {
    if n < 0 {
      assert Itoa(n)[1..] == Digits(-n);
    }
  }
}

=== FILE: utf8.dfy ===
/**
 * UTF-8, the encoding Go's `[]byte(s)` conversion exposes for a string. A Dafny
 * `char` is a Unicode scalar value, so a Dafny string stands for a Go string that
 * holds valid UTF-8.
 */
module Utf8 {
  import opened Results

  /** The values (0 to 255) of the one to four bytes that encode `c`. */
  function Units(c: char): (r: seq<int>)
    ensures 1 <= |r| <= 4
    ensures |r| == 1 <==> c as int < 0x80
    ensures forall i :: 0 <= i < |r| ==> 0 <= r[i] < 0x100
  {
    var n := c as int;
    if n < 0x80 then [n]
    else if n < 0x800 then [0xC0 + n / 0x40, 0x80 + n % 0x40]
    else if n < 0x10000 then [0xE0 + n / 0x1000, 0x80 + n / 0x40 % 0x40, 0x80 + n % 0x40]
    else [0xF0 + n / 0x40000, 0x80 + n / 0x1000 % 0x40, 0x80 + n / 0x40 % 0x40, 0x80 + n % 0x40]
  }

  function EncodeChar(c: char): (r: seq<bv8>)
    ensures |r| == |Units(c)|
  {
    var u := Units(c);
    seq(|u|, i requires 0 <= i < |u| => u[i] as bv8)
  }

  /** Go's `[]byte(s)`. */
  function Encode(s: string): (r: seq<bv8>)
    ensures |r| >= |s|
  {
    if s == "" then [] else EncodeChar(s[0]) + Encode(s[1..])
  }

  /** ASCII text is its own bytes: "Hi" is 0x48 0x69. */
  lemma AsciiExample()
    ensures Encode("Hi") == [0x48, 0x69]
  {
    assert "Hi"[1..] == "i";
    assert "i"[1..] == "";
    AsciiChar('H');
    AsciiChar('i');
  }

  /** Two, three and four byte sequences, one per branch of `Units`: U+00E9 is
      C3 A9, U+20AC is E2 82 AC and U+1F600 is F0 9F 98 80. */
  lemma MultiByteExamples()
    ensures Encode("\U{E9}") == [0xC3, 0xA9]
    ensures Encode("\U{20AC}") == [0xE2, 0x82, 0xAC]
    ensures Encode("\U{1F600}") == [0xF0, 0x9F, 0x98, 0x80]
  {
    OneChar('\U{E9}');
    OneChar('\U{20AC}');
    OneChar('\U{1F600}');
    ByteValues(Units('\U{E9}'), [0xC3, 0xA9]);
    ByteValues(Units('\U{20AC}'), [0xE2, 0x82, 0xAC]);
    ByteValues(Units('\U{1F600}'), [0xF0, 0x9F, 0x98, 0x80]);
  }

  /** A one-character string is the bytes of its character. */
  lemma OneChar(c: char)
    ensures Encode([c]) == EncodeChar(c)
  {
    assert [c][1..] == [];
  }

  /** Byte values given as numbers are the bytes of those values. */
  lemma ByteValues(u: seq<int>, b: seq<bv8>)
    requires |u| == |b| && forall i :: 0 <= i < |u| ==> u[i] == b[i] as int
    ensures seq(|u|, i requires 0 <= i < |u| => u[i] as bv8) == b
  {
  }

  /** An ASCII character is the one byte of its code. */
  lemma AsciiChar(c: char)
    requires c as int < 0x80
    ensures EncodeChar(c) == [c as int as bv8]
  {
  }

  /** The byte values of a byte sequence. */
  function Values(b: seq<bv8>): (r: seq<int>)
    ensures |r| == |b|
  {
    seq(|b|, i requires 0 <= i < |b| => b[i] as int)
  }

  predicate IsContinuation(v: int)
  {
    0x80 <= v < 0xC0
  }

  predicate IsScalar(n: int)
  {
    0 <= n < 0xD800 || 0xE000 <= n < 0x110000
  }

  /** Decodes the scalar value at the front of `v` and says how many bytes it took;
      None for a malformed, overlong or surrogate sequence. */
  function DecodeFirst(v: seq<int>): (r: Option<(char, nat)>)
    ensures r.Some? ==> 1 <= r.value.1 <= |v|
  {
    if |v| == 0 then None
    else if 0 <= v[0] < 0x80 then Some((v[0] as char, 1))
    else if 0xC0 <= v[0] < 0xE0 && |v| >= 2 then Decode2(v[0], v[1])
    else if 0xE0 <= v[0] < 0xF0 && |v| >= 3 then Decode3(v[0], v[1], v[2])
    else if 0xF0 <= v[0] < 0xF8 && |v| >= 4 then Decode4(v[0], v[1], v[2], v[3])
    else None
  }

  /** 110xxxxx 10xxxxxx: a value from 0x80 to 0x7FF. */
  function Decode2(v0: int, v1: int): (r: Option<(char, nat)>)
    ensures r.Some? ==> r.value.1 == 2
  {
    var n := (v0 - 0xC0) * 0x40 + (v1 - 0x80);
    if IsContinuation(v1) && 0x80 <= n < 0x800 then Some((n as char, 2)) else None
  }

  /** 1110xxxx 10xxxxxx 10xxxxxx: a value from 0x800 to 0xFFFF, surrogates excluded. */
  function Decode3(v0: int, v1: int, v2: int): (r: Option<(char, nat)>)
    ensures r.Some? ==> r.value.1 == 3
  {
    var n := (v0 - 0xE0) * 0x1000 + (v1 - 0x80) * 0x40 + (v2 - 0x80);
    if IsContinuation(v1) && IsContinuation(v2) && 0x800 <= n && IsScalar(n) then Some((n as char, 3))
    else None
  }

  /** 11110xxx 10xxxxxx 10xxxxxx 10xxxxxx: a value from 0x10000 to 0x10FFFF. */
  function Decode4(v0: int, v1: int, v2: int, v3: int): (r: Option<(char, nat)>)
    ensures r.Some? ==> r.value.1 == 4
  {
    var n := (v0 - 0xF0) * 0x40000 + (v1 - 0x80) * 0x1000 + (v2 - 0x80) * 0x40 + (v3 - 0x80);
    if IsContinuation(v1) && IsContinuation(v2) && IsContinuation(v3) && 0x10000 <= n < 0x110000
    then Some((n as char, 4))
    else None
  }

  function DecodeValues(v: seq<int>): (r: Option<string>)
    decreases |v|
  {
    if |v| == 0 then Some("")
    else match DecodeFirst(v)
      case None => None
      case Some((c, k)) =>
        match DecodeValues(v[k..])
        case None => None
        case Some(rest) => Some([c] + rest)
  }

  /** Reads bytes as UTF-8 text. */
  function Decode(b: seq<bv8>): (r: Option<string>)
  {
    DecodeValues(Values(b))
  }

  lemma Split64(n: int)
    requires 0 <= n
    ensures n == n / 0x40 * 0x40 + n % 0x40
  {
  }

  lemma DivDiv(n: int)
    requires 0 <= n
    ensures n / 0x40 / 0x40 == n / 0x1000
  {
    var q, r := n / 0x1000, n % 0x1000;
    assert n == q * 0x1000 + r;
    assert n / 0x40 == q * 0x40 + r / 0x40;
  }

  /** A value is its three UTF-8 payload fields, weighted. */
  lemma Fields3(n: int)
    requires 0 <= n
    ensures n == n / 0x1000 * 0x1000 + n / 0x40 % 0x40 * 0x40 + n % 0x40
  {
    Split64(n);
    Split64(n / 0x40);
    DivDiv(n);
  }

  /** A value is its four UTF-8 payload fields, weighted. */
  lemma Fields4(n: int)
    requires 0 <= n
    ensures n == n / 0x40000 * 0x40000 + n / 0x1000 % 0x40 * 0x1000 + n / 0x40 % 0x40 * 0x40 + n % 0x40
  {
    Fields3(n);
    Split64(n / 0x1000);
    DivDiv(n / 0x40);
    DivDiv(n);
    assert n / 0x1000 / 0x40 == n / 0x40000 by {
      var q, r := n / 0x40000, n % 0x40000;
      assert n == q * 0x40000 + r;
      assert n / 0x1000 == q * 0x40 + r / 0x1000;
    }
  }

  /** The byte values of a scalar value are read back as that value, whatever follows them. */
  lemma DecodeFirstUnits(c: char, rest: seq<int>)
    ensures DecodeFirst(Units(c) + rest) == Some((c, |Units(c)|))
  {
    var n := c as int;
    var v := Units(c) + rest;
    if n < 0x80 {
    } else if n < 0x800 {
      Split64(n);
      assert Decode2(v[0], v[1]) == Some((c, 2));
    } else if n < 0x10000 {
      Fields3(n);
      assert Decode3(v[0], v[1], v[2]) == Some((c, 3));
    } else {
      Fields4(n);
      assert Decode4(v[0], v[1], v[2], v[3]) == Some((c, 4));
    }
  }

  /** The byte values of an encoded string, scalar by scalar. */
  function UnitsOf(s: string): (r: seq<int>)
  {
    if s == "" then [] else Units(s[0]) + UnitsOf(s[1..])
  }

  lemma ByteValue(k: int)
    requires 0 <= k < 0x100
    ensures (k as bv8) as int == k
  {
    assert k % 0x100 == k;
  }

  lemma ValuesOfEncodeChar(c: char)
    ensures Values(EncodeChar(c)) == Units(c)
  {
    var u := Units(c);
    forall i | 0 <= i < |u| ensures Values(EncodeChar(c))[i] == u[i] {
      ByteValue(u[i]);
    }
  }

  lemma ValuesAppend(a: seq<bv8>, b: seq<bv8>)
    ensures Values(a + b) == Values(a) + Values(b)
  {
  }

  lemma {:induction false} ValuesOfEncode(s: string)
    ensures Values(Encode(s)) == UnitsOf(s)
  {
    if s != "" {
      ValuesOfEncode(s[1..]);
      ValuesOfEncodeChar(s[0]);
      ValuesAppend(EncodeChar(s[0]), Encode(s[1..]));
    }
  }

  lemma {:induction false} DecodeUnitsOf(s: string)
    ensures DecodeValues(UnitsOf(s)) == Some(s)
  {
    if s != "" {
      var u := Units(s[0]);
      DecodeFirstUnits(s[0], UnitsOf(s[1..]));
      assert (u + UnitsOf(s[1..]))[|u|..] == UnitsOf(s[1..]);
      DecodeUnitsOf(s[1..]);
      assert s == [s[0]] + s[1..];
    }
  }

  /** Decoding undoes encoding, so `[]byte(s)` loses nothing of `s`. */
  lemma DecodeEncode(s: string)
    ensures Decode(Encode(s)) == Some(s)
  {
    ValuesOfEncode(s);
    DecodeUnitsOf(s);
  }
}

=== FILE: wire.dfy ===
/**
 * What the mailer asks of the outside world. TLS, TCP and the SMTP primitives of
 * Go's `net/smtp` are not modelled; the mailer sees them only through the
 * commands below, each of which the network either carries out or answers with
 * an error.
 */
module Wire {
  import opened Results

  /** Go's `tls.Config`, reduced to the two fields the mailer sets. */
  datatype TlsConfig = TlsConfig(insecureSkipVerify: bool, serverName: string)

  /** One request to the network or to the SMTP server. */
  datatype Command =
    | Dial(addr: string, config: TlsConfig)  // tls.Dial("tcp", addr, config)
    | Greet(host: string)                     // smtp.NewClient(conn, host)
    | Auth(identity: string, user: string, password: string, host: string)
                                              // client.Auth(smtp.PlainAuth(identity, user, password, host))
    | MailFrom(from: string)                  // client.Mail(from)
    | RcptTo(to: string)                      // client.Rcpt(to)
    | Data                                    // client.Data()
    | Write(payload: seq<bv8>)                // w.Write(payload) on the DATA writer
    | Close                                   // w.Close()
    | Quit                                    // client.Quit()

  /** The errors the mailer hands back to its caller, with Go's texts in `Message`. */
  datatype MailError =
    | NoBody
    | NoSubject
    | BadAddress
    | NoRecipient
    | BadHost(host: string)
    | BadPort(port: string)
    | Remote(message: string)  // an error of the network or the server, passed on as it came

  function Message(e: MailError): (m: string)
  {
    match e
    case NoBody => "must indicate a body"
    case NoSubject => "must indicate a subject"
    case BadAddress => "email address is inavlid"
    case NoRecipient => "you must indicate at least one mail recipient"
    case BadHost(host) => host + " is NOT a valid SMTP host."
    case BadPort(port) => port + " is NOT a valid SMTP port."
    case Remote(message) => message
  }

  /**
   * The network with the SMTP server behind it. It records every command it is
   * given, and `reply` decides, from the commands given before and the command
   * itself, whether the command fails and with which error; every possible
   * behaviour of a real server and connection is one choice of `reply`.
   */
  class Network {
    var log: seq<Command>
    const reply: (seq<Command>, Command) -> Option<string>

    constructor (reply: (seq<Command>, Command) -> Option<string>)
      ensures log == [] && this.reply == reply
    {
      this.log := [];
      this.reply := reply;
    }

    method Issue(c: Command) returns (err: Option<string>)
      modifies this
      ensures log == old(log) + [c]
      ensures err == reply(old(log), c)
    {
      err := reply(log, c);
      log := log + [c];
    }
  }
}
